=== FILE: README.md ===
# Team priorities board — a Dafny model of the ownership-scoped entity store

The application lets a manager keep a board of team members, each with a
list of priorities. This project models its core in Dafny and proves
properties of the model.

**Server side**
- The two tables are finite maps from SERIAL id to row, held in `Schema.Db` with their id counters.
- Every model method (`create`, `findAll…`, `update`, `reorder`, `delete`, `verifyOwnership`) is a pure function over `Db`. Each has the relational meaning of its SQL statement.
- Each Express handler is a pure function from the request fields and the store to a status code, a JSON body and the new store. `Handled` holds that triple.
- Registration, login and `/me` work over a map of managers keyed by email.

**Client side**
- The reducers of the React app context, which update the cache of team members and priorities.
- The dashboard grid layout.
- The inline edit-commit logic shared by a priority's content and a team member's name.

**Modules**
- `Sql`: `COALESCE(MAX(...))` and `ORDER BY`.
- `Text`: JavaScript's `trim`.
- `TeamMemberModel` and `PriorityModel`: the model classes.
- `ReorderBatch`: the reorder transaction the two tables share.
- `TeamMemberRoutes`, `PriorityRoutes` and `AuthRoutes`: the route handlers.
- `AppContext`: the client cache.
- `GridCalculations`: the grid layout.
- `InlineEdit`, `PriorityItem` and `TeamMemberPanel`: the components.

**Conventions used throughout**
- `CURRENT_TIMESTAMP` is a `now: Time` parameter.
- bcrypt and JWT signing are function parameters (`hash`, `verify`, `sign`).
- A transaction failure is a `failAt` parameter. It names the statement of the batch that throws.
- A request field that may be missing is an `Option`.

**Behaviour of the code that the model keeps**
- **Display order can be reused.** A priority's display order is computed as `MAX + 1` over the rows that exist now, and delete is a hard delete. Deleting a team member's strictly highest priority, when its order is non-negative, and then adding one gives the new row an order no larger than the deleted one. The new order equals the deleted one when the remaining orders reach up to just below it. With orders 0 and 5, deleting the 5 gives the next row 1. With a single priority at -3, deleting it gives the next row 0, which is larger. `PriorityModel.OrderReusedAfterDelete` exhibits the reuse.
- **`completed_at` needs a status.** A patch without `status` leaves `completed_at` alone.
- **Ties have no fixed order.** `ORDER BY` is specified only as "each selected row once, sorted by the key". The order of ties is not promised.

## Model

| member | source | states |
|---|---|---|
| Sql.MaxOr | backend/src/models/TeamMember.js:7 | `COALESCE(MAX(s), fallback)`: the fallback for no rows, otherwise an element of the set that bounds every other |
| Sql.OrderBy | backend/src/models/TeamMember.js:23-25 | the result lists every key of the table exactly once, and the keys are non-decreasing in the sort key; nothing about ties |
| Schema.LastOrderFor | backend/src/models/TeamMember.js:85-92 | for a batch of (id, order) statements, there is an entry for the id iff the id occurs, and its value is the one the last entry for that id assigns, since later statements overwrite earlier ones |
| Text.Trim | backend/src/routes/teamMembers.js:28 | `trim` returns the infix of the string that starts after its leading whitespace, and that infix neither starts nor ends with whitespace |
| Text.TrimDropsOnlyWhitespace | backend/src/routes/teamMembers.js:28 | everything `trim` drops, before and after the infix it keeps, is whitespace |
| Text.BlankIffAllWhitespace | backend/src/routes/teamMembers.js:28 | `s.trim() === ''` holds exactly when every character of `s` is whitespace |
| Text.TrimIdempotent | backend/src/routes/teamMembers.js:57 | trimming an already-trimmed string changes nothing |
| TeamMemberModel.NextDisplayOrder | backend/src/models/TeamMember.js:6-10 | the next order exceeds every order of the manager's rows, archived ones included; it is 0 when the manager has none, and otherwise one past some existing order |
| TeamMemberModel.Create | backend/src/models/TeamMember.js:4-20 | inserts exactly one row under a fresh id, with the given manager and name and the next display order; it leaves every existing row and the priorities untouched |
| TeamMemberModel.CreateAdvancesNextOrder | backend/src/models/TeamMember.js:6-10 | after a create, the manager's next order is one past the row just created |
| TeamMemberModel.FindAllByManager | backend/src/models/TeamMember.js:22-29 | the result is exactly the manager's rows, without archived ones unless requested, each once, by non-decreasing display order |
| TeamMemberModel.Update | backend/src/models/TeamMember.js:40-78 | an empty patch or a missing id gives `null` and no change; otherwise only the fields present change, and no other row changes |
| ReorderBatch.RunMeaning | backend/src/models/TeamMember.js:83-98 | for any table whose order assignment keeps ownership and overwrites earlier assignments: a batch fails iff its failing statement is inside the batch, and a completed batch equals the reference table in which only owned rows named in the map change, each taking the last order the map gives it |
| TeamMemberModel.Reorder | backend/src/models/TeamMember.js:80-102 | a rolled-back batch leaves the store unchanged; a committed one changes only the display order of the manager's rows named in the map |
| TeamMemberModel.Archive | backend/src/models/TeamMember.js:104-115 | the soft delete sets `is_archived`, keeps the row and its other fields, and returns it; a missing id changes nothing |
| TeamMemberModel.VerifyOwnership | backend/src/models/TeamMember.js:117-124 | holds iff a row with that id has that manager, whether archived or not |
| TeamMemberModel.ArchiveHidesFromDefaultListing | backend/src/models/TeamMember.js:22-25 | an archived row leaves the default listing but stays in the listing that includes archived rows |
| PriorityModel.NextDisplayOrder | backend/src/models/Priority.js:6-10 | the next order exceeds every current order of the team member's priorities; it is 0 when there are none |
| PriorityModel.Create | backend/src/models/Priority.js:4-20 | inserts one active row with no `completed_at` under a fresh id, with the next order, and changes nothing else |
| PriorityModel.FindAllByTeamMember | backend/src/models/Priority.js:22-31 | the result is exactly the team member's priorities, each once, sorted by status and then display order |
| PriorityModel.ActiveBeforeCompleted | backend/src/models/Priority.js:26 | in any such listing, every active priority precedes every completed one |
| PriorityModel.Update | backend/src/models/Priority.js:42-87 | an empty patch or missing id gives `null` and no change; otherwise only the fields present change, and `completed_at` becomes now, NULL or unchanged as the patch's status is completed, active or absent |
| PriorityModel.CompleteThenReactivate | backend/src/models/Priority.js:59-70 | completing and then reactivating a priority ends with status active and `completed_at` NULL |
| PriorityModel.Reorder | backend/src/models/Priority.js:89-111 | a rollback leaves the store unchanged; a commit changes only the display order of the team member's priorities named in the map |
| PriorityModel.Delete | backend/src/models/Priority.js:113-120 | the hard delete removes the row and returns its prior contents, or nothing for a missing id; no other row changes |
| PriorityModel.VerifyOwnership | backend/src/models/Priority.js:122-132 | holds iff the priority exists and its team member exists with that manager |
| PriorityModel.DeleteTopThenCreate | backend/src/models/Priority.js:6-10 | after deleting a team member's strictly highest priority whose order is non-negative, the next created one gets an order no larger than the deleted one, and the same order when another of the member's priorities sits just below it |
| PriorityModel.NegativeTopNotReused | backend/src/models/Priority.js:6-10 | on a concrete store, deleting a team member's only priority at order -3 makes the next one get order 0, so the non-negative condition is needed |
| PriorityModel.OrderReusedAfterDelete | backend/src/models/Priority.js:113-120 | on a concrete store, delete-then-create hands out the deleted priority's order again |
| TeamMemberRoutes.List | backend/src/routes/teamMembers.js:11-21 | archived members are included only for `include_archived` exactly `'true'`; the body is the manager's listing |
| TeamMemberRoutes.Create | backend/src/routes/teamMembers.js:24-42 | a missing or blank name gives 400 "Name is required" and no change; otherwise 201 with a row under the trimmed name, created now and ordered one past the manager's highest display order, so it lists last |
| TeamMemberRoutes.BuildPatch | backend/src/routes/teamMembers.js:56-59 | each field of the update is present iff the body carries it, and the name is trimmed |
| TeamMemberRoutes.Patch | backend/src/routes/teamMembers.js:45-68 | a non-owner gets 404 and no change; otherwise 200 with the updated row, or `null` and no change for an empty body |
| TeamMemberRoutes.Reorder | backend/src/routes/teamMembers.js:71-86 | no map gives 400; a failing statement gives 500 and no change; otherwise 200, and only the team-member table changes: other managers' rows are unchanged, and each owned row keeps every field except its display order, which becomes the last order the map gives it |
| TeamMemberRoutes.Delete | backend/src/routes/teamMembers.js:89-106 | a non-owner gets 404 and no change; otherwise the member is archived and returned |
| TeamMemberRoutes.ForeignLooksAbsent | backend/src/routes/teamMembers.js:51-54 | patching or deleting another manager's member is answered exactly as for an id that does not exist, and changes nothing |
| PriorityRoutes.ParseStatus | backend/src/routes/priorities.js:74-78 | a status string is accepted iff it is `'active'` or `'completed'`, and the parsed status spells it |
| PriorityRoutes.List | backend/src/routes/priorities.js:12-29 | a non-owned team member gives 404; otherwise the sorted listing |
| PriorityRoutes.Create | backend/src/routes/priorities.js:32-57 | blank content gives 400 before ownership is checked, a non-owned team member gives 404, otherwise 201 with the trimmed content, created now and ordered one past the member's highest display order, so it lists last among the active ones |
| PriorityRoutes.BuildPatch | backend/src/routes/priorities.js:71-79 | each field of the update is present iff the body carries it, and the content is trimmed |
| PriorityRoutes.Patch | backend/src/routes/priorities.js:60-88 | a non-owner gets 404, an unknown status 400, both with no change; otherwise 200 with the update's result, or `null` for an empty body |
| PriorityRoutes.BlankContentPatchAccepted | backend/src/routes/priorities.js:72 | whitespace-only content is accepted and stored as the empty string |
| PriorityRoutes.Reorder | backend/src/routes/priorities.js:91-112 | a missing team member id or map gives 400, a non-owned team member 404, a failing statement 500, all with no change; otherwise 200, and only the priorities table changes: other team members' priorities are unchanged, and each of this team member's priorities keeps every field except its display order, which becomes the last order the map gives it |
| PriorityRoutes.Delete | backend/src/routes/priorities.js:115-132 | a non-owner gets 404 and no change; otherwise the priority is removed and returned |
| PriorityRoutes.ForeignLooksAbsent | backend/src/routes/priorities.js:66-69 | patching or deleting another manager's priority is answered exactly as for a missing id |
| AuthRoutes.FindById | backend/src/routes/auth.js:97 | a manager is found iff some account has that id, and the one found is stored under its email |
| AuthRoutes.Register | backend/src/routes/auth.js:9-50 | a missing field, a short password and a taken email each give their 400 and no change; otherwise one account is added with the default settings, which stay as they were for later accounts, and 201 returns id, email and name with a token, never the hash |
| AuthRoutes.Login | backend/src/routes/auth.js:53-92 | missing fields give 400; an unknown email or a rejected password give 401 "Invalid credentials"; otherwise 200 with the manager and a token |
| AuthRoutes.LoginFailuresIndistinguishable | backend/src/routes/auth.js:62-71 | an unknown email and a wrong password for a known one get identical responses |
| AuthRoutes.RegisterThenLogin | backend/src/routes/auth.js:29-45 | a manager who just registered logs in with the same password and gets 200 with the same manager fields and a token signed for the same id |
| AuthRoutes.Me | backend/src/routes/auth.js:95-113 | an unknown manager id gives 404; otherwise id, email, name and settings |
| Seqs.Filter | frontend/src/context/AppContext.jsx:110 | `filter` keeps exactly the elements that pass, never lengthening the array |
| Seqs.FilterAppend | frontend/src/components/TeamMemberPanel.jsx:76-77 | filtering preserves order: it distributes over concatenation |
| Seqs.FilterKeepsAll | frontend/src/components/TeamMemberPanel.jsx:76 | filtering a sequence whose every element passes returns it unchanged |
| Seqs.FilterDropsAll | frontend/src/components/TeamMemberPanel.jsx:77 | filtering a sequence whose every element fails returns the empty sequence |
| Seqs.FilterPartition | frontend/src/components/TeamMemberPanel.jsx:76-77 | filtering by a predicate and by its negation splits the array with nothing lost or duplicated |
| Seqs.ReplaceWhere | frontend/src/context/AppContext.jsx:102-104 | the keyed `map` keeps the length, puts the replacement where the key matches and keeps every other element |
| AppContext.Logout | frontend/src/context/AppContext.jsx:79-90 | the user, team members and priorities are cleared whatever the API call did |
| AppContext.AddTeamMember | frontend/src/context/AppContext.jsx:93-98 | on success the new member goes last and gets an empty priority list, and other lists, the user, the save status and the loading flag are unchanged; on failure nothing changes and the error propagates |
| AppContext.UpdateTeamMember | frontend/src/context/AppContext.jsx:100-106 | on success exactly the members with the id are replaced and the length is kept; the user, the save status and the loading flag are unchanged |
| AppContext.DeleteTeamMember | frontend/src/context/AppContext.jsx:108-116 | on success exactly the members with the id leave the list, and only that key leaves the priorities map; the user, the save status and the loading flag are unchanged |
| AppContext.AddPriority | frontend/src/context/AppContext.jsx:119-133 | the save status is saving while in flight, then saved or error; on success the priority goes last in its member's list, a missing list counting as empty, and other lists, the team members, the user and the loading flag are unchanged |
| AppContext.UpdatePriority | frontend/src/context/AppContext.jsx:135-151 | on success, within one member's list, exactly the priorities with the id are replaced; other lists, the team members, the user and the loading flag are unchanged |
| AppContext.DeletePriority | frontend/src/context/AppContext.jsx:153-166 | on success, the member's list becomes its order-preserving filter without the id; other lists, the team members, the user and the loading flag are unchanged |
| GridCalculations.FontSize | frontend/src/utils/gridCalculations.js:56-59 | the font size is the larger of 10px and the linear shrink: at least both, and equal to one of them |
| GridCalculations.FontSizeNonIncreasing | frontend/src/utils/gridCalculations.js:56-59 | more members never give a larger font |
| GridCalculations.SquareishColumns | frontend/src/utils/gridCalculations.js:51 | `ceil(sqrt(1.5n))` as the least column count whose square reaches 1.5n |
| GridCalculations.CalculateGridLayout | frontend/src/utils/gridCalculations.js:5-66 | 0 or 1 members give 1×1; the grid always has room for every member, and for one or more members no row is empty; beyond twelve the columns are the near-square count |
| GridCalculations.LargeGridsAreWide | frontend/src/utils/gridCalculations.js:49-53 | beyond twelve members there are never more rows than columns |
| InlineEdit.SaveGuard | frontend/src/components/PriorityItem.jsx:13-17 | the auto-saver sends iff the trimmed draft is non-blank and differs from the stored value, and it sends the trimmed draft |
| InlineEdit.SentValueIsClean | frontend/src/components/PriorityItem.jsx:14-15 | what is sent is non-blank, already trimmed and different from the stored value |
| InlineEdit.Blur | frontend/src/components/PriorityItem.jsx:26-33 | blur closes the field; a blank draft reverts to the stored value with no save; a save is scheduled iff the trimmed draft is non-blank and changed |
| InlineEdit.BlurAgreesWithGuard | frontend/src/components/PriorityItem.jsx:26-33 | a save scheduled by blur always passes the auto-saver's guard |
| InlineEdit.KeyDown | frontend/src/components/PriorityItem.jsx:35-43 | Enter acts exactly as blur; only Enter can save, and it saves what the guard sends; Escape restores the stored value and closes; other keys change nothing |
| PriorityItem.ToggledStatus | frontend/src/components/PriorityItem.jsx:46 | the checkbox always asks for the other status |
| PriorityItem.ToggleTwiceRestores | frontend/src/components/PriorityItem.jsx:46 | toggling twice asks for the original status |
| PriorityItem.ToggleReachesServer | frontend/src/components/PriorityItem.jsx:45-48 | the toggle request, sent by the owner, is accepted; it flips the stored status and sets or clears `completed_at` |
| PriorityItem.ContentSaveStoredAsSent | frontend/src/components/PriorityItem.jsx:13-17 | content saved from the editor is stored exactly as sent and is never blank |
| TeamMemberPanel.PanelSections | frontend/src/components/TeamMemberPanel.jsx:75-77 | the sections are the order-preserving filters of the member's list by status, a missing list counting as empty; together they are a permutation of it; the empty state shows iff both are empty |
| TeamMemberPanel.ServerListingDrawnInOrder | frontend/src/components/TeamMemberPanel.jsx:148-171 | for a list as the server returns it, the active section followed by the completed section is the listing itself |
| TeamMemberPanel.NameSaveStoredAsSent | frontend/src/components/TeamMemberPanel.jsx:16-20 | a name saved from the editor is stored exactly as sent and is never blank |

## Left out

- **Express dispatch is not modelled.** Each handler is its own function. In both routers, `PATCH /:id` is registered before `PATCH /reorder` (`backend/src/routes/teamMembers.js:45` and `:71`; `backend/src/routes/priorities.js:60` and `:91`). Under first-match dispatch the reorder handlers are shadowed, and no claim is made about whether they can be reached.
- **Unexpected failures are not modelled, except in a reorder batch.** This covers database errors and the 500 responses of the `catch` blocks other than reorder. Those depend on infrastructure.
- **Authentication middleware, the connection pool, the migrations, the HTTP client and `localStorage` are left out.** They are I/O. The caller's manager id is a parameter.
- **bcrypt and JWT are left out.** Their cost factor, salt and token expiry are not modelled. They are uninterpreted function parameters.
- **JavaScript type coercion is not modelled.** This includes `parseInt` of `display_order`, the truthiness of non-string bodies, and `typeof order_map`. Request fields are typed `Option` values, and a missing or non-object `order_map` is `None`.
- Text.Trim: **lengths count code points, not UTF-16 units.** This affects the password length check, which is counted the same way. Characters outside the Basic Multilingual Plane are not distinguished.
- **The status column is an enumeration.** The handler validates the string before it reaches the model, so other strings never reach the store.
- **The schema file is not part of this model.** The column default of `managers.settings` is the `defaultSettings` field of the accounts.
- **The debounce of the auto-saver is not modelled.** Its timer and asynchrony are left out. A blur's save is the value the guard sends when the blur happens, as if nothing was typed before the timer fired.
- **Transaction isolation and concurrent requests are not modelled.** A batch is atomic through its `failAt` parameter alone.
- **Concurrent cache updates are not modelled.** The React state updates are applied in sequence.
- **`login`, `register`, `loadTeamMembers` and app initialisation are left out of the client model.** They only store what the API returns.
- **Rendering is left out.** This covers the CSS of `getGridStyle`, the `px` suffix of the font size, the menu and the confirmation dialog.
- GridCalculations.FontSize: **uses exact reals.** IEEE doubles are not modelled, so the computed value may differ from the displayed text in the last digit.
- GridCalculations.SquareishColumns: **uses exact arithmetic.** Floating-point `Math.sqrt` is not modelled.
- AuthRoutes.RegisterThenLogin: the token is `sign(id)`, a function of the manager id alone. The real token also carries its issue and expiry times, so the two tokens are equal only when both are signed in the same second. What the lemma promises without that assumption is 200, the same manager fields, and a token signed for the same id.
- AppContext.UpdatePriority: requires the member's list to be cached on success. The source would throw reading a missing list, and that path is not modelled.
- AppContext.DeletePriority: requires the member's list to be cached on success, for the same reason.

=== FILE: app_context.dfy ===
/**
 * The client-side cache kept by the app context: the signed-in manager, the
 * team members in display order, and each team member's priorities. Every
 * mutation awaits the server, then writes the server's answer into the cache;
 * a failed call leaves the cache alone and propagates its error.
 */
module AppContext {
  import opened Wrappers
  import opened Schema
  import Http
  import Seqs

  datatype SaveStatus = Saving | Saved | SaveError

  datatype AppState = AppState(
    user: Option<Http.ManagerView>,
    teamMembers: seq<TeamMember>,
    priorities: map<Id, seq<Priority>>,
    loading: bool,
    saveStatus: SaveStatus)

  /** What an awaited API call threw. */
  type ApiError = string

  /** The cache after a call, and what the call returns or rethrows. */
  datatype Step<+T> = Step(state: AppState, outcome: Result<T, ApiError>)

  /**
   * A priority mutation: the cache while the request is in flight
   * (`saveStatus` is 'saving'), the cache after it, and what it returns or rethrows.
   */
  datatype Flow<+T> = Flow(inFlight: AppState, final: AppState, outcome: Result<T, ApiError>)

  /** `logout`: the user, team members and priorities are cleared whether or not the API call fails. */
  function Logout(s: AppState, api: Option<ApiError>): (r: AppState)
    ensures r.user.None? && |r.teamMembers| == 0 && r.priorities.Keys == {}
    ensures r.loading == s.loading && r.saveStatus == s.saveStatus
  {
    s.(user := None, teamMembers := [], priorities := map[])
  }

  /** `addTeamMember`: the created member goes last and gets an empty priority list. */
  function AddTeamMember(s: AppState, api: Result<TeamMember, ApiError>): (r: Step<TeamMember>)
    ensures r.outcome == api
    ensures api.Failure? ==> r.state == s
    ensures api.Success? ==>
      var m := api.value;
      && |r.state.teamMembers| == |s.teamMembers| + 1
      && r.state.teamMembers[..|s.teamMembers|] == s.teamMembers
      && r.state.teamMembers[|s.teamMembers|] == m
      && m.id in r.state.priorities && r.state.priorities[m.id] == []
      && (forall k :: k != m.id ==> (k in r.state.priorities <==> k in s.priorities))
      && (forall k :: k != m.id && k in s.priorities ==> r.state.priorities[k] == s.priorities[k])
      && r.state.user == s.user && r.state.saveStatus == s.saveStatus && r.state.loading == s.loading
  {
    match api
    case Failure(_) => Step(s, api)
    case Success(m) =>
      var s' := s.(teamMembers := s.teamMembers + [m], priorities := s.priorities[m.id := []]);
      assert s'.teamMembers[..|s.teamMembers|] == s.teamMembers;
      Step(s', api)
  }

  /** `updateTeamMember`: each entry with the id is replaced by the server's row; nothing else moves. */
  function UpdateTeamMember(s: AppState, id: Id, api: Result<TeamMember, ApiError>): (r: Step<TeamMember>)
    ensures r.outcome == api
    ensures api.Failure? ==> r.state == s
    ensures api.Success? ==>
      && |r.state.teamMembers| == |s.teamMembers|
      && (forall i :: 0 <= i < |s.teamMembers| ==>
           r.state.teamMembers[i] == (if s.teamMembers[i].id == id then api.value else s.teamMembers[i]))
      && r.state.priorities == s.priorities && r.state.user == s.user && r.state.saveStatus == s.saveStatus
      && r.state.loading == s.loading
  {
    match api
    case Failure(_) => Step(s, api)
    case Success(updated) =>
      Step(s.(teamMembers := Seqs.ReplaceWhere(s.teamMembers, (m: TeamMember) => m.id == id, updated)), api)
  }

  /**
   * `deleteTeamMember`: every entry with the id leaves the list, in order,
   * and its priority list leaves the map.
   */
  function DeleteTeamMember(s: AppState, id: Id, api: Option<ApiError>): (r: Step<()>)
    ensures api.Some? ==> r == Step(s, Failure(api.value))
    ensures api.None? ==>
      && r.outcome == Success(())
      && (forall m :: m in r.state.teamMembers <==> m in s.teamMembers && m.id != id)
      && r.state.teamMembers == Seqs.Filter(s.teamMembers, (m: TeamMember) => m.id != id)
      && r.state.priorities.Keys == s.priorities.Keys - {id}
      && (forall k :: k in r.state.priorities ==> r.state.priorities[k] == s.priorities[k])
      && r.state.user == s.user && r.state.saveStatus == s.saveStatus && r.state.loading == s.loading
  {
    if api.Some? then Step(s, Failure(api.value))
    else
      var members := Seqs.Filter(s.teamMembers, (m: TeamMember) => m.id != id);
      Step(s.(teamMembers := members, priorities := s.priorities - {id}), Success(()))
  }

  /** `prev[teamMemberId] || []`. */
  function ListOf(priorities: map<Id, seq<Priority>>, teamMemberId: Id): seq<Priority> {
    if teamMemberId in priorities then priorities[teamMemberId] else []
  }

  /** The shared shape of the three priority mutations. */
  function Track<T>(s: AppState, api: Result<T, ApiError>, applied: map<Id, seq<Priority>>): (f: Flow<T>)
    ensures f.inFlight == s.(saveStatus := Saving)
    ensures f.outcome == api
    ensures api.Success? ==> f.final == s.(priorities := applied, saveStatus := Saved)
    ensures api.Failure? ==> f.final == s.(saveStatus := SaveError)
  {
    var inFlight := s.(saveStatus := Saving);
    match api
    case Success(_) => Flow(inFlight, inFlight.(priorities := applied, saveStatus := Saved), api)
    case Failure(_) => Flow(inFlight, inFlight.(saveStatus := SaveError), api)
  }

  /** `addPriority`: the created priority goes last in its member's list; a missing list counts as empty. */
  function AddPriority(s: AppState, teamMemberId: Id, api: Result<Priority, ApiError>): (f: Flow<Priority>)
    ensures f.inFlight == s.(saveStatus := Saving) && f.outcome == api
    ensures api.Failure? ==> f.final == s.(saveStatus := SaveError)
    ensures api.Success? ==> teamMemberId in f.final.priorities
    ensures api.Success? ==>
      var before := ListOf(s.priorities, teamMemberId);
      var after := f.final.priorities[teamMemberId];
      && f.final.saveStatus == Saved
      && f.final.priorities.Keys == s.priorities.Keys + {teamMemberId}
      && |after| == |before| + 1 && after[..|before|] == before && after[|before|] == api.value
      && (forall k :: k in s.priorities && k != teamMemberId ==> f.final.priorities[k] == s.priorities[k])
      && f.final.teamMembers == s.teamMembers && f.final.user == s.user && f.final.loading == s.loading
  {
    var applied := if api.Success? then
      s.priorities[teamMemberId := ListOf(s.priorities, teamMemberId) + [api.value]]
    else s.priorities;
    assert api.Success? ==> applied[teamMemberId][..|ListOf(s.priorities, teamMemberId)|] == ListOf(s.priorities, teamMemberId);
    Track(s, api, applied)
  }

  /**
   * `updatePriority`: within one member's list, each priority with the id
   * is replaced by the server's row. The list must already be cached.
   */
  function UpdatePriority(s: AppState, id: Id, teamMemberId: Id, api: Result<Priority, ApiError>): (f: Flow<Priority>)
    requires api.Success? ==> teamMemberId in s.priorities
    ensures f.inFlight == s.(saveStatus := Saving) && f.outcome == api
    ensures api.Failure? ==> f.final == s.(saveStatus := SaveError)
    ensures api.Success? ==> teamMemberId in f.final.priorities
    ensures api.Success? ==>
      var before := s.priorities[teamMemberId];
      var after := f.final.priorities[teamMemberId];
      && f.final.saveStatus == Saved
      && f.final.priorities.Keys == s.priorities.Keys
      && |after| == |before|
      && (forall i :: 0 <= i < |before| ==> after[i] == (if before[i].id == id then api.value else before[i]))
      && (forall k :: k in s.priorities && k != teamMemberId ==> f.final.priorities[k] == s.priorities[k])
      && f.final.teamMembers == s.teamMembers && f.final.user == s.user && f.final.loading == s.loading
  {
    var applied := if api.Success? then
      s.priorities[teamMemberId := Seqs.ReplaceWhere(s.priorities[teamMemberId], (p: Priority) => p.id == id, api.value)]
    else s.priorities;
    Track(s, api, applied)
  }

  /** `deletePriority`: within one member's list, every priority with the id is filtered out. */
  function DeletePriority(s: AppState, id: Id, teamMemberId: Id, api: Option<ApiError>): (f: Flow<()>)
    requires api.None? ==> teamMemberId in s.priorities
    ensures f.inFlight == s.(saveStatus := Saving)
    ensures api.Some? ==> f.final == s.(saveStatus := SaveError) && f.outcome == Failure(api.value)
    ensures api.None? ==> teamMemberId in f.final.priorities
    ensures api.None? ==>
      var before := s.priorities[teamMemberId];
      var after := f.final.priorities[teamMemberId];
      && f.outcome == Success(())
      && f.final.saveStatus == Saved
      && f.final.priorities.Keys == s.priorities.Keys
      && after == Seqs.Filter(before, (p: Priority) => p.id != id)
      && (forall p :: p in after <==> p in before && p.id != id)
      && |after| <= |before|
      && (forall k :: k in s.priorities && k != teamMemberId ==> f.final.priorities[k] == s.priorities[k])
      && f.final.teamMembers == s.teamMembers && f.final.user == s.user && f.final.loading == s.loading
  {
    var api' := if api.Some? then Failure(api.value) else Success(());
    var applied := if api.None? then
      s.priorities[teamMemberId := Seqs.Filter(s.priorities[teamMemberId], (p: Priority) => p.id != id)]
    else s.priorities;
    Track(s, api', applied)
  }
}

=== FILE: auth_routes.dfy ===
/**
 * The `/api/auth` handlers over the `managers` table, keyed by email.
 * Password hashing, hash comparison and token signing are opaque functions
 * passed in by the caller.
 */
module AuthRoutes {
  import opened Wrappers
  import opened Schema
  import opened Http

  /** A row of `managers`. */
  datatype Manager = Manager(id: Id, email: string, passwordHash: string, name: string, settings: string)

  /** The `managers` table keyed by its unique email, its id sequence, and the `settings` column default. */
  datatype Accounts = Accounts(byEmail: map<string, Manager>, nextId: Id, defaultSettings: string)

  /** Every row sits under its own email, ids come from the sequence, and no two rows share an id. */
  predicate Valid(a: Accounts) {
    && (forall e :: e in a.byEmail ==> a.byEmail[e].email == e && a.byEmail[e].id < a.nextId)
    && (forall e1, e2 :: e1 in a.byEmail && e2 in a.byEmail && a.byEmail[e1].id == a.byEmail[e2].id ==> e1 == e2)
  }

  function View(m: Manager): ManagerView {
    ManagerView(m.id, m.email, m.name)
  }

  /** `Manager.findById`: the row with that id, if any. */
  function FindById(a: Accounts, id: Id): (r: Option<Manager>)
    requires Valid(a)
    ensures r.Some? <==> exists e :: e in a.byEmail && a.byEmail[e].id == id
    ensures r.Some? ==> r.value.id == id && r.value.email in a.byEmail && a.byEmail[r.value.email] == r.value
  {
    var hits := set e | e in a.byEmail && a.byEmail[e].id == id;
    assert forall e :: e in a.byEmail && a.byEmail[e].id == id ==> e in hits;
    if hits == {} then None
    else
      var e :| e in hits;
      Some(a.byEmail[e])
  }

  /**
   * `POST /register`: 400 when a field is missing, when the password is
   * shorter than six characters, or when the email is taken; otherwise one
   * manager is added and its public fields are returned with a signed token.
   */
  function Register(a: Accounts, email: Option<string>, password: Option<string>, name: Option<string>,
                    hash: string -> string, sign: Id -> string): (h: Handled<Accounts>)
    requires Valid(a)
    ensures Valid(h.state)
    ensures Falsy(email) || Falsy(password) || Falsy(name) ==>
      h == Handled(Error(400, "Email, password, and name are required"), a)
    ensures !(Falsy(email) || Falsy(password) || Falsy(name)) && |password.value| < 6 ==>
      h == Handled(Error(400, "Password must be at least 6 characters"), a)
    ensures !(Falsy(email) || Falsy(password) || Falsy(name)) && |password.value| >= 6 && email.value in a.byEmail ==>
      h == Handled(Error(400, "Email already registered"), a)
    ensures !(Falsy(email) || Falsy(password) || Falsy(name)) && |password.value| >= 6 && email.value !in a.byEmail ==>
      && h.response.status == 201
      && email.value in h.state.byEmail
      && var m := h.state.byEmail[email.value];
        && h.state.byEmail == a.byEmail[email.value := m]
        && h.state.defaultSettings == a.defaultSettings
        && m.name == name.value && m.passwordHash == hash(password.value) && m.settings == a.defaultSettings
        && (forall e :: e in a.byEmail ==> a.byEmail[e].id != m.id)
        && h.response.body == AuthJson(ManagerView(m.id, email.value, name.value), sign(m.id))
  {
    if Falsy(email) || Falsy(password) || Falsy(name) then
      Handled(Error(400, "Email, password, and name are required"), a)
    else if |password.value| < 6 then
      Handled(Error(400, "Password must be at least 6 characters"), a)
    else if email.value in a.byEmail then
      Handled(Error(400, "Email already registered"), a)
    else
      var m := Manager(a.nextId, email.value, hash(password.value), name.value, a.defaultSettings);
      var a' := a.(byEmail := a.byEmail[email.value := m], nextId := a.nextId + 1);
      Handled(Response(201, AuthJson(View(m), sign(m.id))), a')
  }

  const InvalidCredentials := Error(401, "Invalid credentials")

  /**
   * `POST /login`: 400 when a field is missing; 401 for an unknown email or a
   * password that does not match the stored hash; otherwise the manager's
   * public fields with a signed token. Nothing is written.
   */
  function Login(a: Accounts, email: Option<string>, password: Option<string>,
                 verify: (string, string) -> bool, sign: Id -> string): (r: Response)
    requires Valid(a)
    ensures Falsy(email) || Falsy(password) ==> r == Error(400, "Email and password are required")
    ensures !Falsy(email) && !Falsy(password) ==>
      if email.value in a.byEmail && verify(password.value, a.byEmail[email.value].passwordHash) then
        var m := a.byEmail[email.value];
        r == Response(200, AuthJson(ManagerView(m.id, m.email, m.name), sign(m.id)))
      else r == InvalidCredentials
  {
    if Falsy(email) || Falsy(password) then Error(400, "Email and password are required")
    else if email.value !in a.byEmail then InvalidCredentials
    else
      var m := a.byEmail[email.value];
      if !verify(password.value, m.passwordHash) then InvalidCredentials
      else Response(200, AuthJson(View(m), sign(m.id)))
  }

  /** An unknown email and a wrong password are answered identically. */
  lemma LoginFailuresIndistinguishable(a: Accounts, unknown: string, known: string, password: string,
                                       verify: (string, string) -> bool, sign: Id -> string)
    requires Valid(a)
    requires unknown != "" && unknown !in a.byEmail
    requires known != "" && known in a.byEmail && password != "" && !verify(password, a.byEmail[known].passwordHash)
    ensures Login(a, Some(unknown), Some(password), verify, sign) == Login(a, Some(known), Some(password), verify, sign)
    ensures Login(a, Some(unknown), Some(password), verify, sign).status == 401
  {
  }

  /** A manager who just registered can log in with the same password, given a hash the verifier accepts. */
  lemma RegisterThenLogin(a: Accounts, email: string, password: string, name: string,
                          hash: string -> string, verify: (string, string) -> bool, sign: Id -> string)
    requires Valid(a)
    requires email != "" && name != "" && |password| >= 6 && email !in a.byEmail
    requires verify(password, hash(password))
    ensures var h := Register(a, Some(email), Some(password), Some(name), hash, sign);
      h.response.status == 201 &&
      Login(h.state, Some(email), Some(password), verify, sign) == Response(200, h.response.body)
  {
  }

  /** `GET /me`: 404 for an id with no manager; otherwise its public fields and settings. */
  function Me(a: Accounts, managerId: Id): (r: Response)
    requires Valid(a)
    ensures (forall e :: e in a.byEmail ==> a.byEmail[e].id != managerId) ==> r == Error(404, "Manager not found")
    ensures forall e :: e in a.byEmail && a.byEmail[e].id == managerId ==>
      var m := a.byEmail[e];
      r == Response(200, MeJson(m.id, m.email, m.name, m.settings))
  {
    match FindById(a, managerId)
    case None => Error(404, "Manager not found")
    case Some(m) => Response(200, MeJson(m.id, m.email, m.name, m.settings))
  }
}

=== FILE: grid.dfy ===
/**
 * The dashboard grid: how many columns and rows of team-member panels to
 * draw for a team of a given size, and the font size the panels use.
 */
module GridCalculations {

  datatype Layout = Layout(columns: nat, rows: nat, fontSize: real)

  const BaseFontSize: real := 16.0
  /** The hard minimum font size, in px. */
  const MinFontSize: real := 10.0
  /** How much the font shrinks per additional member, in px. */
  const FontStep: real := 1.2

  /** `max(10, 16 - (memberCount - 1) * 1.2)`. */
  function FontSize(memberCount: nat): (px: real)
    ensures px >= MinFontSize
    ensures px >= BaseFontSize - (memberCount as real - 1.0) * FontStep
    ensures px == MinFontSize || px == BaseFontSize - (memberCount as real - 1.0) * FontStep
  {
    var shrunk := BaseFontSize - (memberCount as real - 1.0) * FontStep;
    if shrunk < MinFontSize then MinFontSize else shrunk
  }

  /** Adding members never makes the text larger. */
  lemma FontSizeNonIncreasing(m: nat, n: nat)
    requires m <= n
    ensures FontSize(n) <= FontSize(m)
  {}

  /** `Math.ceil(Math.sqrt(memberCount * 1.5))`, computed exactly: the least c with c*c >= 1.5 * memberCount. */
  function SquareishColumns(memberCount: nat): (c: nat)
    ensures 2 * c * c >= 3 * memberCount
    ensures c == 0 || 2 * (c - 1) * (c - 1) < 3 * memberCount
  {
    ColumnsFrom(memberCount, 0)
  }

  /** Search upward from `c` for the least column count whose square reaches 1.5 times the count. */
  function ColumnsFrom(memberCount: nat, c: nat): (r: nat)
    requires c == 0 || 2 * (c - 1) * (c - 1) < 3 * memberCount
    ensures r >= c
    ensures 2 * r * r >= 3 * memberCount
    ensures r == 0 || 2 * (r - 1) * (r - 1) < 3 * memberCount
    decreases 3 * memberCount - 2 * c * c
  {
    if 2 * c * c >= 3 * memberCount then c
    else
      assert 2 * (c + 1) * (c + 1) > 2 * c * c;
      ColumnsFrom(memberCount, c + 1)
  }

  /** `Math.ceil(n / columns)` for positive columns. */
  function CeilDiv(n: nat, columns: nat): (rows: nat)
    requires columns > 0
    ensures columns * rows >= n
    ensures rows == 0 || columns * (rows - 1) < n
  {
    var q := (n + columns - 1) / columns;
    var rem := (n + columns - 1) % columns;
    assert n + columns - 1 == q * columns + rem;
    assert columns * q == n + columns - 1 - rem;
    q
  }

  /** `calculateGridLayout(memberCount)`: a fixed table up to twelve members, a near-square grid beyond. */
  function CalculateGridLayout(memberCount: nat): (layout: Layout)
    ensures layout.columns >= 1 && layout.rows >= 1
    ensures memberCount <= 1 ==> layout.columns == 1 && layout.rows == 1
    ensures layout.columns * layout.rows >= memberCount
    ensures memberCount >= 1 ==> layout.columns * (layout.rows - 1) < memberCount
    ensures memberCount > 12 ==>
      && 2 * layout.columns * layout.columns >= 3 * memberCount
      && 2 * (layout.columns - 1) * (layout.columns - 1) < 3 * memberCount
    ensures layout.fontSize == FontSize(memberCount)
  {
    var fontSize := FontSize(memberCount);
    if memberCount <= 1 then Layout(1, 1, fontSize)
    else if memberCount == 2 then Layout(2, 1, fontSize)
    else if memberCount == 3 then Layout(3, 1, fontSize)
    else if memberCount == 4 then Layout(2, 2, fontSize)
    else if memberCount <= 6 then Layout(3, 2, fontSize)
    else if memberCount <= 9 then Layout(3, 3, fontSize)
    else if memberCount <= 12 then Layout(4, 3, fontSize)
    else
      var columns := SquareishColumns(memberCount);
      assert columns > 0;
      Layout(columns, CeilDiv(memberCount, columns), fontSize)
  }

  /** Beyond the table, the grid is at least as wide as it is tall. */
  lemma {:induction false} LargeGridsAreWide(memberCount: nat)
    requires memberCount > 12
    ensures CalculateGridLayout(memberCount).rows <= CalculateGridLayout(memberCount).columns
  {
    var layout := CalculateGridLayout(memberCount);
    var c, r := layout.columns, layout.rows;
    if r > c {
      MulMonotone(c, c, r - 1);
    }
  }

  lemma MulMonotone(a: nat, b: nat, d: nat)
    requires b <= d
    ensures a * b <= a * d
  {}
}

=== FILE: http.dfy ===
/** What a route handler sends back: a status code and a JSON body. */
module Http {
  import opened Wrappers
  import opened Schema

  /** The public face of a manager: never the password hash. */
  datatype ManagerView = ManagerView(id: Id, email: string, name: string)

  datatype Body =
    | TeamMemberJson(teamMember: TeamMember)
    | TeamMembersJson(teamMembers: seq<TeamMember>)
    | PriorityJson(priority: Priority)
    | PrioritiesJson(priorities: seq<Priority>)
    | AuthJson(manager: ManagerView, token: string)
    | MeJson(id: Id, email: string, name: string, settings: string)
    | NullJson
    | MessageJson(message: string)
    | ErrorJson(error: string)

  datatype Response = Response(status: nat, body: Body)

  /** A handler's response together with the state it leaves behind. */
  datatype Handled<+S> = Handled(response: Response, state: S)

  function Error(status: nat, message: string): Response {
    Response(status, ErrorJson(message))
  }

  /** `!x` for a request field that is absent or a string: true for `undefined` and `''`. */
  predicate Falsy(field: Option<string>) {
    field.None? || field.value == ""
  }
}

=== FILE: inline_edit.dfy ===
/**
 * The click-to-edit text field shared by a priority's content and a team
 * member's name: a draft that is committed on blur or Enter, discarded on
 * Escape, and handed to a debounced auto-saver guarded against blank and
 * unchanged values.
 */
module InlineEdit {
  import opened Wrappers
  import opened Text

  datatype Key = Enter | Escape | OtherKey

  /** Whether the input is shown, and the text it holds. */
  datatype Editor = Editor(editing: bool, draft: string)

  /** An event's effect: the editor afterwards, and the value handed to the auto-saver, if any. */
  datatype Effect = Effect(editor: Editor, save: Option<string>)

  /** The auto-saver's guard: it sends the trimmed draft only when that is non-empty and differs from the stored value. */
  function SaveGuard(draft: string, stored: string): (sent: Option<string>)
    ensures sent.Some? <==> !IsBlank(draft) && Trim(draft) != stored
    ensures sent.Some? ==> sent.value == Trim(draft)
  {
    var t := Trim(draft);
    if t != stored && t != "" then Some(t) else None
  }

  /** Whatever the guard sends is non-blank, already trimmed, and a change. */
  lemma SentValueIsClean(draft: string, stored: string)
    ensures var sent := SaveGuard(draft, stored);
      sent.Some? ==> !IsBlank(sent.value) && Trim(sent.value) == sent.value && sent.value != stored
  {
    TrimIdempotent(draft);
  }

  /**
   * Leaving the field: it closes; a blank draft is replaced by the stored
   * value; a changed draft is handed to the auto-saver; an unchanged one is kept as typed.
   */
  function Blur(draft: string, stored: string): (e: Effect)
    ensures !e.editor.editing
    ensures IsBlank(draft) ==> e.editor.draft == stored
    ensures !IsBlank(draft) ==> e.editor.draft == draft
    ensures e.save.Some? <==> !IsBlank(draft) && Trim(draft) != stored
  {
    var t := Trim(draft);
    if t == "" then Effect(Editor(false, stored), None)
    else if t != stored then Effect(Editor(false, draft), SaveGuard(draft, stored))
    else Effect(Editor(false, draft), None)
  }

  /** The blur handler's own checks and the auto-saver's guard agree: a scheduled save always sends. */
  lemma BlurAgreesWithGuard(draft: string, stored: string)
    ensures Blur(draft, stored).save == SaveGuard(draft, stored)
  {}

  /**
   * A key press in the open field: Enter acts as blur, Escape discards the
   * draft and closes, any other key changes nothing here.
   */
  function KeyDown(e: Editor, stored: string, key: Key): (r: Effect)
    ensures key == Enter ==> r == Blur(e.draft, stored)
    ensures r.save.Some? ==> key == Enter && r.save == SaveGuard(e.draft, stored)
    ensures key != OtherKey ==> !r.editor.editing
    ensures key == Escape ==> r.editor.draft == stored && r.save.None?
    ensures key == OtherKey ==> r.editor == e && r.save.None?
  {
    match key
    case Enter =>
      BlurAgreesWithGuard(e.draft, stored);
      Blur(e.draft, stored)
    case Escape => Effect(Editor(false, stored), None)
    case OtherKey => Effect(e, None)
  }
}

=== FILE: priority_item.dfy ===
/** One priority row in a panel: its completion checkbox and its inline content editor. */
module PriorityItem {
  import opened Wrappers
  import opened Schema
  import Text
  import InlineEdit
  import PriorityModel
  import PriorityRoutes

  /** The status the checkbox asks for: 'completed' for an active priority, 'active' otherwise. */
  function ToggledStatus(s: Status): (t: Status)
    ensures t != s
  {
    if s == Active then Completed else Active
  }

  /** Clicking the checkbox twice asks for the status the priority started with. */
  lemma ToggleTwiceRestores(s: Status)
    ensures ToggledStatus(ToggledStatus(s)) == s
  {}

  /**
   * The toggle request `{ status }` sent by the owner through the PATCH
   * route is accepted, flips the stored status, and sets or clears `completed_at`.
   */
  lemma ToggleReachesServer(db: Db, managerId: Id, id: Id, now: Time)
    requires Valid(db) && PriorityModel.VerifyOwnership(db, id, managerId)
    ensures var t := ToggledStatus(db.priorities[id].status);
      var h := PriorityRoutes.Patch(db, managerId, id, None, None, Some(StatusText(t)), now);
      && h.response.status == 200
      && h.state.priorities[id].status == t
      && h.state.priorities[id].completedAt == (if t == Completed then Some(now) else None)
  {
    PriorityRoutes.ParseStatusText(ToggledStatus(db.priorities[id].status));
  }

  /**
   * The content editor never stores a blank: what a blur hands to the
   * auto-saver, sent through the PATCH route, is stored exactly as sent.
   */
  lemma ContentSaveStoredAsSent(db: Db, managerId: Id, id: Id, draft: string, now: Time)
    requires Valid(db) && PriorityModel.VerifyOwnership(db, id, managerId)
    requires InlineEdit.Blur(draft, db.priorities[id].content).save.Some?
    ensures var sent := InlineEdit.Blur(draft, db.priorities[id].content).save.value;
      var h := PriorityRoutes.Patch(db, managerId, id, Some(sent), None, None, now);
      && h.response.status == 200
      && h.state.priorities[id].content == sent
      && !Text.IsBlank(h.state.priorities[id].content)
      && h.state.priorities[id].status == db.priorities[id].status
  {
    var stored := db.priorities[id].content;
    InlineEdit.BlurAgreesWithGuard(draft, stored);
    InlineEdit.SentValueIsClean(draft, stored);
    var sent := InlineEdit.Blur(draft, stored).save.value;
    var patch := PriorityRoutes.BuildPatch(Some(sent), None, None);
    assert patch.content == Some(sent) && !patch.IsEmpty();
  }
}

=== FILE: priority_model.dfy ===
/**
 * The `priorities` table and the SQL statements the Priority model issues
 * against it, each given its relational meaning over `Schema.Db`.
 */
module PriorityModel {
  import opened Wrappers
  import opened Schema
  import Sql
  import ReorderBatch

  /** The display orders of every priority of one team member. */
  function OrdersOf(rows: map<Id, Priority>, teamMemberId: Id): set<int> {
    set k | k in rows && rows[k].teamMemberId == teamMemberId :: rows[k].displayOrder
  }

  /** `SELECT COALESCE(MAX(display_order), -1) + 1 FROM priorities WHERE team_member_id = $1`. */
  function NextDisplayOrder(db: Db, teamMemberId: Id): (next: int)
    ensures forall k :: k in db.priorities && db.priorities[k].teamMemberId == teamMemberId ==>
      db.priorities[k].displayOrder < next
    ensures (forall k :: k in db.priorities ==> db.priorities[k].teamMemberId != teamMemberId) ==> next == 0
    ensures (exists k :: k in db.priorities && db.priorities[k].teamMemberId == teamMemberId) ==>
      exists k :: k in db.priorities && db.priorities[k].teamMemberId == teamMemberId && next == db.priorities[k].displayOrder + 1
  {
    var orders := OrdersOf(db.priorities, teamMemberId);
    assert forall k :: k in db.priorities && db.priorities[k].teamMemberId == teamMemberId ==>
      db.priorities[k].displayOrder in orders;
    Sql.MaxOr(orders, -1) + 1
  }

  /**
   * `Priority.create`: insert one row above every current priority of the
   * team member; `status` and `completed_at` take their column defaults.
   */
  function Create(db: Db, teamMemberId: Id, content: string, now: Time): (w: Write<Priority>)
    requires Valid(db)
    ensures Valid(w.db)
    ensures w.result.id !in db.priorities
    ensures w.db.priorities == db.priorities[w.result.id := w.result]
    ensures w.db.teamMembers == db.teamMembers
    ensures w.result.teamMemberId == teamMemberId && w.result.content == content
    ensures w.result.status == Active && w.result.completedAt == None && w.result.createdAt == now
    ensures forall k :: k in db.priorities && db.priorities[k].teamMemberId == teamMemberId ==>
      db.priorities[k].displayOrder < w.result.displayOrder
    ensures (forall k :: k in db.priorities ==> db.priorities[k].teamMemberId != teamMemberId) ==>
      w.result.displayOrder == 0
    ensures (exists k :: k in db.priorities && db.priorities[k].teamMemberId == teamMemberId) ==>
      exists k :: k in db.priorities && db.priorities[k].teamMemberId == teamMemberId &&
        w.result.displayOrder == db.priorities[k].displayOrder + 1
  {
    var id := db.nextPriorityId;
    var row := Priority(id, teamMemberId, content, NextDisplayOrder(db, teamMemberId), Active, None, now);
    Write(row, db.(priorities := db.priorities[id := row], nextPriorityId := id + 1))
  }

  /** `ORDER BY status ASC`: the text 'active' sorts before 'completed'. */
  function StatusRank(s: Status): int {
    match s
    case Active => 0
    case Completed => 1
  }

  function ListKey(row: Priority): Sql.SortKey {
    Sql.SortKey(StatusRank(row.status), row.displayOrder)
  }

  /**
   * `rows` is an answer to the listing query: exactly the team member's
   * priorities, each once, ordered by status and then by display order.
   */
  predicate IsListing(db: Db, teamMemberId: Id, rows: seq<Priority>) {
    && (forall i :: 0 <= i < |rows| ==>
      rows[i].id in db.priorities && db.priorities[rows[i].id] == rows[i] && rows[i].teamMemberId == teamMemberId)
    && (forall k :: k in db.priorities && db.priorities[k].teamMemberId == teamMemberId ==>
      exists i :: 0 <= i < |rows| && rows[i].id == k)
    && (forall i, j :: 0 <= i < j < |rows| ==> rows[i].id != rows[j].id)
    && (forall i, j :: 0 <= i < j < |rows| ==> Sql.KeyLe(ListKey(rows[i]), ListKey(rows[j])))
  }

  function Selected(db: Db, teamMemberId: Id): map<Id, Priority> {
    map k | k in db.priorities && db.priorities[k].teamMemberId == teamMemberId :: db.priorities[k]
  }

  /** `Priority.findAllByTeamMember`. */
  function FindAllByTeamMember(db: Db, teamMemberId: Id): (rows: seq<Priority>)
    requires Valid(db)
    ensures IsListing(db, teamMemberId, rows)
  {
    var selected := Selected(db, teamMemberId);
    var ids := Sql.OrderBy(selected, ListKey);
    var rows := seq(|ids|, i requires 0 <= i < |ids| => selected[ids[i]]);
    ListingFacts(db, teamMemberId, ids, rows);
    rows
  }

  lemma ListingFacts(db: Db, teamMemberId: Id, ids: seq<Id>, rows: seq<Priority>)
    requires Valid(db)
    requires Sql.EnumeratesKeys(Selected(db, teamMemberId), ids)
    requires Sql.SortedBy(Selected(db, teamMemberId), ListKey, ids)
    requires |rows| == |ids| && forall i :: 0 <= i < |ids| ==> rows[i] == Selected(db, teamMemberId)[ids[i]]
    ensures IsListing(db, teamMemberId, rows)
  {
    var selected := Selected(db, teamMemberId);
    assert forall i :: 0 <= i < |rows| ==> rows[i].id == ids[i];
    forall k | k in db.priorities && db.priorities[k].teamMemberId == teamMemberId
      ensures exists i :: 0 <= i < |rows| && rows[i].id == k
    {
      assert k in selected;
      var i :| 0 <= i < |ids| && ids[i] == k;
      assert rows[i].id == k;
    }
  }

  /** The number of leading active priorities. */
  function ActivePrefix(rows: seq<Priority>): (n: nat)
    ensures n <= |rows|
    ensures forall i :: 0 <= i < n ==> rows[i].status == Active
    ensures n < |rows| ==> rows[n].status == Completed
  {
    if rows == [] || rows[0].status == Completed then 0
    else
      var tail := rows[1..];
      var m := ActivePrefix(tail);
      assert rows[0].status == Active;
      assert forall i :: 1 <= i < 1 + m ==> rows[i] == tail[i - 1] && tail[i - 1].status == Active;
      assert forall i :: 0 <= i < 1 + m ==> rows[i].status == Active;
      1 + m
  }

  /** The first `n` rows are exactly the active ones. */
  predicate SplitsAt(rows: seq<Priority>, n: nat) {
    n <= |rows| && forall i :: 0 <= i < |rows| ==> (rows[i].status == Active <==> i < n)
  }

  /**
   * A listing is all the active priorities followed by all the completed
   * ones, whatever their display orders.
   */
  lemma {:induction false} ActiveBeforeCompleted(db: Db, teamMemberId: Id, rows: seq<Priority>)
    requires IsListing(db, teamMemberId, rows)
    ensures exists n :: SplitsAt(rows, n)
  {
    var n := ActivePrefix(rows);
    forall i | n <= i < |rows| ensures rows[i].status == Completed {
      if i > n {
        assert Sql.KeyLe(ListKey(rows[n]), ListKey(rows[i]));
      }
    }
    assert SplitsAt(rows, n);
  }

  /** The fields a PATCH may carry; `None` is a field left out of the patch. */
  datatype PriorityPatch = PriorityPatch(content: Option<string>, displayOrder: Option<int>, status: Option<Status>) {
    predicate IsEmpty() {
      content.None? && displayOrder.None? && status.None?
    }
  }

  /** The `completed_at` a patch leaves on a row: only a status in the patch touches it. */
  predicate CompletedAtFollowsStatus(patch: PriorityPatch, before: Priority, after: Priority, now: Time) {
    match patch.status
    case None => after.completedAt == before.completedAt
    case Some(Completed) => after.completedAt == Some(now)
    case Some(Active) => after.completedAt == None
  }

  /**
   * `Priority.update`: an empty patch issues no statement and yields `null`;
   * otherwise the UPDATE sets exactly the fields present, and a status in the
   * patch sets `completed_at` to now (completed) or NULL (anything else).
   */
  function Update(db: Db, id: Id, patch: PriorityPatch, now: Time): (w: Write<Option<Priority>>)
    requires Valid(db)
    ensures Valid(w.db)
    ensures w.db.teamMembers == db.teamMembers
    ensures w.result.Some? <==> !patch.IsEmpty() && id in db.priorities
    ensures w.result.None? ==> w.db == db
    ensures w.result.Some? ==>
      var old_, new_ := db.priorities[id], w.result.value;
      && w.db.priorities == db.priorities[id := new_]
      && new_.id == id && new_.teamMemberId == old_.teamMemberId && new_.createdAt == old_.createdAt
      && new_.content == (if patch.content.Some? then patch.content.value else old_.content)
      && new_.displayOrder == (if patch.displayOrder.Some? then patch.displayOrder.value else old_.displayOrder)
      && new_.status == (if patch.status.Some? then patch.status.value else old_.status)
      && CompletedAtFollowsStatus(patch, old_, new_, now)
  {
    if patch.IsEmpty() || id !in db.priorities then Write(None, db)
    else
      var row := db.priorities[id];
      var completedAt :=
        match patch.status
        case None => row.completedAt
        case Some(s) => if s == Completed then Some(now) else None;
      var row' := row.(
        content := patch.content.GetOr(row.content),
        displayOrder := patch.displayOrder.GetOr(row.displayOrder),
        status := patch.status.GetOr(row.status),
        completedAt := completedAt);
      Write(Some(row'), db.(priorities := db.priorities[id := row']))
  }

  /**
   * Completing and then reactivating a priority restores its status but not
   * its timestamp: `completed_at` ends NULL.
   */
  lemma CompleteThenReactivate(db: Db, id: Id, t1: Time, t2: Time)
    requires Valid(db) && id in db.priorities
    ensures var w1 := Update(db, id, PriorityPatch(None, None, Some(Completed)), t1);
      var w2 := Update(w1.db, id, PriorityPatch(None, None, Some(Active)), t2);
      && w1.result.Some? && w1.result.value.completedAt == Some(t1)
      && w2.result.Some? && w2.result.value.status == Active && w2.result.value.completedAt == None
  {
  }

  /** The reorder statement's ownership test, `team_member_id = $3`. */
  function ReorderScope(teamMemberId: Id): Priority -> bool {
    (row: Priority) => row.teamMemberId == teamMemberId
  }

  /** The reorder statement's assignment, `display_order = $1`. */
  function WithOrder(row: Priority, order: int): Priority {
    row.(displayOrder := order)
  }

  /**
   * `Priority.reorder`: BEGIN, one scoped UPDATE per entry, COMMIT; on any
   * error ROLLBACK and rethrow. Priorities of other team members, and absent
   * ids, are skipped.
   */
  function Reorder(db: Db, teamMemberId: Id, entries: seq<OrderEntry>, failAt: Option<nat>): (w: Write<TxOutcome>)
    requires Valid(db)
    ensures Valid(w.db)
    ensures w.result.RolledBack? <==> failAt.Some? && failAt.value < |entries|
    ensures w.result.RolledBack? ==> w.db == db
    ensures w.result.Committed? ==>
      && w.db == db.(priorities := w.db.priorities)
      && w.db.teamMembers == db.teamMembers
      && w.db.nextPriorityId == db.nextPriorityId
      && w.db.priorities.Keys == db.priorities.Keys
      && forall k :: k in db.priorities ==>
        var row := db.priorities[k];
        if row.teamMemberId == teamMemberId && LastOrderFor(entries, k).Some?
        then w.db.priorities[k] == row.(displayOrder := LastOrderFor(entries, k).value)
        else w.db.priorities[k] == row
  {
    ReorderBatch.RunMeaning(db.priorities, ReorderScope(teamMemberId), WithOrder, entries, failAt);
    match ReorderBatch.Run(db.priorities, ReorderScope(teamMemberId), WithOrder, entries, failAt)
    case None => Write(RolledBack(failAt.value), db)
    case Some(rows) => Write(Committed, db.(priorities := rows))
  }

  /** `Priority.delete`: the hard delete `DELETE FROM priorities WHERE id = $1 RETURNING *`. */
  function Delete(db: Db, id: Id): (w: Write<Option<Priority>>)
    requires Valid(db)
    ensures Valid(w.db)
    ensures w.db.teamMembers == db.teamMembers
    ensures w.result.Some? <==> id in db.priorities
    ensures w.result.None? ==> w.db == db
    ensures w.result.Some? ==> w.result.value == db.priorities[id]
    ensures id !in w.db.priorities
    ensures forall k :: k in db.priorities && k != id ==> k in w.db.priorities && w.db.priorities[k] == db.priorities[k]
    ensures forall k :: k in w.db.priorities ==> k in db.priorities
  {
    if id !in db.priorities then Write(None, db)
    else Write(Some(db.priorities[id]), db.(priorities := db.priorities - {id}))
  }

  /**
   * `Priority.verifyOwnership`: the join
   * `priorities p JOIN team_members tm ON p.team_member_id = tm.id WHERE p.id = $1 AND tm.manager_id = $2`
   * returns a row.
   */
  function VerifyOwnership(db: Db, id: Id, managerId: Id): (owned: bool)
    ensures owned <==>
      && id in db.priorities
      && db.priorities[id].teamMemberId in db.teamMembers
      && db.teamMembers[db.priorities[id].teamMemberId].managerId == managerId
  {
    var hits := set k, t | k in db.priorities && t in db.teamMembers && db.priorities[k].teamMemberId == t
      && k == id && db.teamMembers[t].managerId == managerId :: k;
    assert (id in db.priorities && db.priorities[id].teamMemberId in db.teamMembers
      && db.teamMembers[db.priorities[id].teamMemberId].managerId == managerId) ==> id in hits;
    |hits| > 0
  }

  /**
   * Display orders are reused: deleting a team member's strictly highest
   * (non-negative) priority and then creating one hands the new row an order
   * no larger than the deleted one's, and equal to it when the remaining
   * orders reach up to just below it. Only "above every current row" is
   * promised, not "never reused".
   */
  lemma DeleteTopThenCreate(db: Db, top: Id, content: string, now: Time)
    requires Valid(db) && top in db.priorities && db.priorities[top].displayOrder >= 0
    requires forall k :: k in db.priorities && k != top && db.priorities[k].teamMemberId == db.priorities[top].teamMemberId ==>
      db.priorities[k].displayOrder < db.priorities[top].displayOrder
    ensures var tm := db.priorities[top].teamMemberId;
      Create(Delete(db, top).db, tm, content, now).result.displayOrder <= db.priorities[top].displayOrder
    ensures var tm := db.priorities[top].teamMemberId;
      (exists k :: k in db.priorities && k != top && db.priorities[k].teamMemberId == tm
        && db.priorities[k].displayOrder == db.priorities[top].displayOrder - 1) ==>
      Create(Delete(db, top).db, tm, content, now).result.displayOrder == db.priorities[top].displayOrder
  {
    var tm := db.priorities[top].teamMemberId;
    var db1 := Delete(db, top).db;
    if exists k :: k in db1.priorities && db1.priorities[k].teamMemberId == tm {
      var k :| k in db1.priorities && db1.priorities[k].teamMemberId == tm
        && Create(db1, tm, content, now).result.displayOrder == db1.priorities[k].displayOrder + 1;
      assert db1.priorities[k] == db.priorities[k] && k != top;
    }
  }

  /**
   * Why `DeleteTopThenCreate` needs a non-negative order: a single priority
   * at order -3 is deleted, and the next one gets `COALESCE(MAX, -1) + 1`, which is 0.
   */
  lemma NegativeTopNotReused()
    ensures
      var a := Priority(1, 7, "Ship v1", -3, Active, None, 0);
      var db := Db(map[], map[1 := a], 1, 2);
      Create(Delete(db, 1).db, 7, "Plan v2", 5).result.displayOrder == 0 > a.displayOrder
  {
    var a := Priority(1, 7, "Ship v1", -3, Active, None, 0);
    var db := Db(map[], map[1 := a], 1, 2);
    assert Delete(db, 1).db.priorities == map[];
  }

  /** A concrete instance of the reuse: orders 0 and 1, delete the 1, and the next priority gets 1 again. */
  lemma OrderReusedAfterDelete()
    ensures
      var a := Priority(1, 7, "Ship v1", 0, Active, None, 0);
      var b := Priority(2, 7, "Write docs", 1, Active, None, 0);
      var db := Db(map[], map[1 := a, 2 := b], 1, 3);
      var db1 := Delete(db, 2).db;
      Create(db1, 7, "Plan v2", 5).result.displayOrder == b.displayOrder
  {
    var a := Priority(1, 7, "Ship v1", 0, Active, None, 0);
    var b := Priority(2, 7, "Write docs", 1, Active, None, 0);
    var db := Db(map[], map[1 := a, 2 := b], 1, 3);
    var db1 := Delete(db, 2).db;
    assert db1.priorities == map[1 := a];
    var w := Create(db1, 7, "Plan v2", 5);
    assert forall k :: k in db1.priorities ==> k == 1;
  }
}

=== FILE: priority_routes.dfy ===
/**
 * The priority handlers (`/api/team-members/:teamMemberId/priorities` and
 * `/api/priorities`). Validation and ownership checks come before any write.
 */
module PriorityRoutes {
  import opened Wrappers
  import opened Schema
  import opened Http
  import Text
  import TeamMemberModel
  import PriorityModel

  const TeamMemberNotFound := Error(404, "Team member not found")
  const PriorityNotFound := Error(404, "Priority not found")

  /** The status values the PATCH handler admits. */
  function ParseStatus(s: string): (r: Option<Status>)
    ensures r.Some? <==> s == "active" || s == "completed"
    ensures r.Some? ==> StatusText(r.value) == s
  {
    if s == "active" then Some(Active)
    else if s == "completed" then Some(Completed)
    else None
  }

  lemma ParseStatusText(st: Status)
    ensures ParseStatus(StatusText(st)) == Some(st)
  {
  }

  /** `GET .../:teamMemberId/priorities`: 404 unless the caller owns the team member. */
  function List(db: Db, managerId: Id, teamMemberId: Id): (h: Handled<Db>)
    requires Valid(db)
    ensures h.state == db
    ensures !TeamMemberModel.VerifyOwnership(db, teamMemberId, managerId) ==> h.response == TeamMemberNotFound
    ensures TeamMemberModel.VerifyOwnership(db, teamMemberId, managerId) ==>
      && h.response.status == 200 && h.response.body.PrioritiesJson?
      && PriorityModel.IsListing(db, teamMemberId, h.response.body.priorities)
  {
    if !TeamMemberModel.VerifyOwnership(db, teamMemberId, managerId) then Handled(TeamMemberNotFound, db)
    else Handled(Response(200, PrioritiesJson(PriorityModel.FindAllByTeamMember(db, teamMemberId))), db)
  }

  /**
   * `POST .../:teamMemberId/priorities`: blank content is refused before the
   * ownership check; then 404 for a team member the caller does not own;
   * otherwise the trimmed content is stored.
   */
  function Create(db: Db, managerId: Id, teamMemberId: Id, content: Option<string>, now: Time): (h: Handled<Db>)
    requires Valid(db)
    ensures Valid(h.state)
    ensures (content.None? || Text.IsBlank(content.value)) ==> h == Handled(Error(400, "Content is required"), db)
    ensures content.Some? && !Text.IsBlank(content.value) && !TeamMemberModel.VerifyOwnership(db, teamMemberId, managerId) ==>
      h == Handled(TeamMemberNotFound, db)
    ensures content.Some? && !Text.IsBlank(content.value) && TeamMemberModel.VerifyOwnership(db, teamMemberId, managerId) ==>
      && h.response.status == 201
      && h.response.body.PriorityJson?
      && var row := h.response.body.priority;
        && row.content == Text.Trim(content.value) && row.teamMemberId == teamMemberId
        && row.status == Active && row.completedAt == None
        && row.displayOrder == PriorityModel.NextDisplayOrder(db, teamMemberId) && row.createdAt == now
        && row.id !in db.priorities
        && h.state.priorities == db.priorities[row.id := row]
        && h.state.teamMembers == db.teamMembers
  {
    if Falsy(content) || Text.IsBlank(content.value) then Handled(Error(400, "Content is required"), db)
    else if !TeamMemberModel.VerifyOwnership(db, teamMemberId, managerId) then Handled(TeamMemberNotFound, db)
    else
      var w := PriorityModel.Create(db, teamMemberId, Text.Trim(content.value), now);
      Handled(Response(201, PriorityJson(w.result)), w.db)
  }

  /** The update object the PATCH handler builds from a body whose status already passed validation. */
  function BuildPatch(content: Option<string>, displayOrder: Option<int>, status: Option<Status>): (p: PriorityModel.PriorityPatch)
    ensures p.content.Some? <==> content.Some?
    ensures content.Some? ==> p.content.value == Text.Trim(content.value)
    ensures p.displayOrder == displayOrder && p.status == status
  {
    PriorityModel.PriorityPatch(
      if content.Some? then Some(Text.Trim(content.value)) else None,
      displayOrder,
      status)
  }

  /**
   * `PATCH /priorities/:id`: 404 unless the caller owns the priority (through
   * its team member); 400 for a status other than 'active'/'completed';
   * otherwise the patch is applied. Whitespace-only content is not refused:
   * it is stored as the empty string.
   */
  function Patch(db: Db, managerId: Id, id: Id, content: Option<string>, displayOrder: Option<int>, status: Option<string>, now: Time): (h: Handled<Db>)
    requires Valid(db)
    ensures Valid(h.state)
    ensures !PriorityModel.VerifyOwnership(db, id, managerId) ==> h == Handled(PriorityNotFound, db)
    ensures PriorityModel.VerifyOwnership(db, id, managerId) && status.Some? && ParseStatus(status.value).None? ==>
      h == Handled(Error(400, "Invalid status"), db)
    ensures PriorityModel.VerifyOwnership(db, id, managerId) && (status.None? || ParseStatus(status.value).Some?) ==>
      && h.response.status == 200
      && var st := if status.Some? then ParseStatus(status.value) else None;
        var w := PriorityModel.Update(db, id, BuildPatch(content, displayOrder, st), now);
        && h.state == w.db
        && h.response.body == (if w.result.Some? then PriorityJson(w.result.value) else NullJson)
    ensures PriorityModel.VerifyOwnership(db, id, managerId) && content.None? && displayOrder.None? && status.None? ==>
      h == Handled(Response(200, NullJson), db)
  {
    if !PriorityModel.VerifyOwnership(db, id, managerId) then Handled(PriorityNotFound, db)
    else if status.Some? && ParseStatus(status.value).None? then Handled(Error(400, "Invalid status"), db)
    else
      var st := if status.Some? then ParseStatus(status.value) else None;
      var w := PriorityModel.Update(db, id, BuildPatch(content, displayOrder, st), now);
      Handled(Response(200, if w.result.Some? then PriorityJson(w.result.value) else NullJson), w.db)
  }

  /** A whitespace-only content patch on an owned priority succeeds and stores the empty string. */
  lemma BlankContentPatchAccepted(db: Db, managerId: Id, id: Id, content: string, now: Time)
    requires Valid(db) && PriorityModel.VerifyOwnership(db, id, managerId)
    requires Text.AllWhitespace(content)
    ensures var h := Patch(db, managerId, id, Some(content), None, None, now);
      h.response.status == 200 && h.state.priorities[id].content == ""
  {
    Text.BlankIffAllWhitespace(content);
  }

  /** `!team_member_id` for a numeric id: absent or zero. */
  predicate MissingId(field: Option<Id>) {
    field.None? || field.value == 0
  }

  /**
   * `PATCH /priorities/reorder`: 400 without a team member id and an
   * `order_map` object; 404 for a team member the caller does not own; then
   * the scoped batch runs, reporting success, or 500 after a rollback.
   */
  function Reorder(db: Db, managerId: Id, teamMemberId: Option<Id>, orderMap: Option<seq<OrderEntry>>, failAt: Option<nat>): (h: Handled<Db>)
    requires Valid(db)
    ensures Valid(h.state)
    ensures MissingId(teamMemberId) || orderMap.None? ==>
      h == Handled(Error(400, "team_member_id and order_map are required"), db)
    ensures !MissingId(teamMemberId) && orderMap.Some? && !TeamMemberModel.VerifyOwnership(db, teamMemberId.value, managerId) ==>
      h == Handled(TeamMemberNotFound, db)
    ensures !MissingId(teamMemberId) && orderMap.Some? && TeamMemberModel.VerifyOwnership(db, teamMemberId.value, managerId) ==>
      if failAt.Some? && failAt.value < |orderMap.value| then
        h == Handled(Error(500, "Failed to reorder priorities"), db)
      else
        && h.response == Response(200, MessageJson("Priorities reordered successfully"))
        && h.state.teamMembers == db.teamMembers
        && h.state.priorities.Keys == db.priorities.Keys
        && (forall k :: k in db.priorities && db.priorities[k].teamMemberId != teamMemberId.value ==>
             h.state.priorities[k] == db.priorities[k])
        && h.state == db.(priorities := h.state.priorities)
        && (forall k :: k in db.priorities && db.priorities[k].teamMemberId == teamMemberId.value ==>
             h.state.priorities[k] == db.priorities[k].(displayOrder :=
               LastOrderFor(orderMap.value, k).GetOr(db.priorities[k].displayOrder)))
  {
    if MissingId(teamMemberId) || orderMap.None? then Handled(Error(400, "team_member_id and order_map are required"), db)
    else if !TeamMemberModel.VerifyOwnership(db, teamMemberId.value, managerId) then Handled(TeamMemberNotFound, db)
    else
      var w := PriorityModel.Reorder(db, teamMemberId.value, orderMap.value, failAt);
      if w.result.RolledBack? then Handled(Error(500, "Failed to reorder priorities"), db)
      else Handled(Response(200, MessageJson("Priorities reordered successfully")), w.db)
  }

  /** `DELETE /priorities/:id`: 404 unless owned; otherwise the row is removed and returned. */
  function Delete(db: Db, managerId: Id, id: Id): (h: Handled<Db>)
    requires Valid(db)
    ensures Valid(h.state)
    ensures !PriorityModel.VerifyOwnership(db, id, managerId) ==> h == Handled(PriorityNotFound, db)
    ensures PriorityModel.VerifyOwnership(db, id, managerId) ==>
      && h.response == Response(200, PriorityJson(db.priorities[id]))
      && h.state.priorities == db.priorities - {id}
      && h.state.teamMembers == db.teamMembers
  {
    if !PriorityModel.VerifyOwnership(db, id, managerId) then Handled(PriorityNotFound, db)
    else
      var w := PriorityModel.Delete(db, id);
      Handled(Response(200, PriorityJson(w.result.value)), w.db)
  }

  /**
   * A priority under another manager's team member and an id that does not
   * exist get the same answer from every id-addressed handler, and nothing changes.
   */
  lemma ForeignLooksAbsent(db: Db, managerId: Id, foreign: Id, absent: Id,
                           content: Option<string>, displayOrder: Option<int>, status: Option<string>, now: Time)
    requires Valid(db)
    requires foreign in db.priorities && db.priorities[foreign].teamMemberId in db.teamMembers
    requires db.teamMembers[db.priorities[foreign].teamMemberId].managerId != managerId
    requires absent !in db.priorities
    ensures Patch(db, managerId, foreign, content, displayOrder, status, now) == Patch(db, managerId, absent, content, displayOrder, status, now)
    ensures Delete(db, managerId, foreign) == Delete(db, managerId, absent)
    ensures Delete(db, managerId, foreign).state == db
  {
  }
}

=== FILE: reorder_batch.dfy ===
/**
 * The reorder transaction both tables share: BEGIN, then one
 * `UPDATE ... SET display_order = $1 WHERE id = $2 AND <owner> = $3` per
 * `(id, order)` entry of the order map, then COMMIT, or ROLLBACK on the
 * first error. The table's row type, its ownership test and its
 * display-order update are parameters.
 */
module ReorderBatch {
  import opened Wrappers
  import opened Schema

  /** One scoped statement: only an existing row that passes the ownership test is touched. */
  function SetOrder<T>(rows: map<Id, T>, owned: T -> bool, withOrder: (T, int) -> T, entry: OrderEntry): map<Id, T> {
    var (id, order) := entry;
    if id in rows && owned(rows[id]) then rows[id := withOrder(rows[id], order)]
    else rows
  }

  /**
   * The statements executed in order inside one transaction; statement `i`
   * raises a storage error when `failAt == Some(i)`. `None` means the
   * transaction saw an error.
   */
  function Run<T>(rows: map<Id, T>, owned: T -> bool, withOrder: (T, int) -> T,
                  entries: seq<OrderEntry>, failAt: Option<nat>): Option<map<Id, T>>
  {
    if entries == [] then Some(rows)
    else
      var last := |entries| - 1;
      match Run(rows, owned, withOrder, entries[..last], failAt)
      case None => None
      case Some(r) => if failAt == Some(last) then None else Some(SetOrder(r, owned, withOrder, entries[last]))
  }

  /**
   * The intended effect of a batch, stated row by row: an owned row named in
   * the batch takes the last order given for it; every other row is untouched.
   */
  function Reordered<T>(rows: map<Id, T>, owned: T -> bool, withOrder: (T, int) -> T, entries: seq<OrderEntry>): map<Id, T> {
    map k | k in rows ::
      if owned(rows[k]) && LastOrderFor(entries, k).Some?
      then withOrder(rows[k], LastOrderFor(entries, k).value)
      else rows[k]
  }

  /**
   * What the batch relies on of the assignment: it never changes whether a
   * row is owned, and a later assignment overwrites an earlier one.
   */
  ghost predicate WellBehaved<T(!new)>(owned: T -> bool, withOrder: (T, int) -> T) {
    && (forall t: T, o: int :: owned(withOrder(t, o)) == owned(t))
    && (forall t: T, a: int, b: int :: withOrder(withOrder(t, a), b) == withOrder(t, b))
  }

  lemma KeepsOwner<T(!new)>(owned: T -> bool, withOrder: (T, int) -> T, t: T, o: int)
    requires WellBehaved(owned, withOrder)
    ensures owned(withOrder(t, o)) == owned(t)
  {}

  lemma Overwrites<T(!new)>(owned: T -> bool, withOrder: (T, int) -> T, t: T, a: int, b: int)
    requires WellBehaved(owned, withOrder)
    ensures withOrder(withOrder(t, a), b) == withOrder(t, b)
  {}

  /** One more statement on top of the intended rows of a prefix gives the intended rows of the longer batch. */
  lemma ReorderedStep<T(!new)>(rows: map<Id, T>, owned: T -> bool, withOrder: (T, int) -> T,
                               prefix: seq<OrderEntry>, entry: OrderEntry)
    requires WellBehaved(owned, withOrder)
    ensures SetOrder(Reordered(rows, owned, withOrder, prefix), owned, withOrder, entry)
         == Reordered(rows, owned, withOrder, prefix + [entry])
  {
    var entries := prefix + [entry];
    var r := Reordered(rows, owned, withOrder, prefix);
    var got := SetOrder(r, owned, withOrder, entry);
    var expected := Reordered(rows, owned, withOrder, entries);
    assert entries[..|entries| - 1] == prefix;
    assert got.Keys == expected.Keys;
    forall k | k in got ensures got[k] == expected[k] {
      if k != entry.0 {
        assert LastOrderFor(entries, k) == LastOrderFor(prefix, k);
      } else {
        assert LastOrderFor(entries, k) == Some(entry.1);
        var earlier := LastOrderFor(prefix, k);
        if owned(rows[k]) && earlier.Some? {
          var once := withOrder(rows[k], earlier.value);
          assert r[k] == once;
          KeepsOwner(owned, withOrder, rows[k], earlier.value);
          Overwrites(owned, withOrder, rows[k], earlier.value, entry.1);
        } else {
          assert r[k] == rows[k];
        }
      }
    }
  }

  /** Executing the batch succeeds unless a statement in it fails, and then yields the intended rows. */
  lemma {:induction false} RunMeaning<T(!new)>(rows: map<Id, T>, owned: T -> bool, withOrder: (T, int) -> T,
                                               entries: seq<OrderEntry>, failAt: Option<nat>)
    requires WellBehaved(owned, withOrder)
    ensures Run(rows, owned, withOrder, entries, failAt).None? <==> failAt.Some? && failAt.value < |entries|
    ensures Run(rows, owned, withOrder, entries, failAt).Some? ==>
      Run(rows, owned, withOrder, entries, failAt).value == Reordered(rows, owned, withOrder, entries)
    decreases |entries|
  {
    if entries != [] {
      var last := |entries| - 1;
      var prefix := entries[..last];
      RunMeaning(rows, owned, withOrder, prefix, failAt);
      assert entries == prefix + [entries[last]];
      ReorderedStep(rows, owned, withOrder, prefix, entries[last]);
    }
  }
}

=== FILE: schema.dfy ===
/**
 * The two tables of the entity store. Each table is a finite map from its
 * SERIAL id to its row; the counters stand for the id sequences.
 */
module Schema {
  import opened Wrappers

  type Id = nat

  /** An abstract clock reading (`CURRENT_TIMESTAMP`). */
  type Time = int

  /** `priorities.status`; the routes admit only these two values. */
  datatype Status = Active | Completed

  /** The spelling stored in the `status` column. */
  function StatusText(s: Status): string {
    match s
    case Active => "active"
    case Completed => "completed"
  }

  /** A row of `team_members`. */
  datatype TeamMember = TeamMember(
    id: Id,
    managerId: Id,
    name: string,
    displayOrder: int,
    isArchived: bool,
    createdAt: Time)

  /** A row of `priorities`; `completedAt == None` is SQL `NULL`. */
  datatype Priority = Priority(
    id: Id,
    teamMemberId: Id,
    content: string,
    displayOrder: int,
    status: Status,
    completedAt: Option<Time>,
    createdAt: Time)

  datatype Db = Db(
    teamMembers: map<Id, TeamMember>,
    priorities: map<Id, Priority>,
    nextTeamMemberId: Id,
    nextPriorityId: Id)

  /** A store operation's returned value together with the store after it. */
  datatype Write<+T> = Write(result: T, db: Db)

  /** Every row sits under its own id, and every id was drawn from its sequence. */
  predicate Valid(db: Db) {
    && (forall k :: k in db.teamMembers ==> db.teamMembers[k].id == k && k < db.nextTeamMemberId)
    && (forall k :: k in db.priorities ==> db.priorities[k].id == k && k < db.nextPriorityId)
  }

  /** One `(id, display_order)` pair of a reorder request, in `Object.entries` order. */
  type OrderEntry = (Id, int)

  /** No entry after position `i` is for `id`. */
  predicate LastFor(entries: seq<OrderEntry>, id: Id, i: nat) {
    forall j :: i < j < |entries| ==> entries[j].0 != id
  }

  /** The order the last entry for `id` assigns, if any (later statements overwrite earlier ones). */
  function LastOrderFor(entries: seq<OrderEntry>, id: Id): (r: Option<int>)
    ensures r.Some? <==> exists i :: 0 <= i < |entries| && entries[i].0 == id
    ensures r.Some? ==> exists i :: 0 <= i < |entries| && entries[i] == (id, r.value) && LastFor(entries, id, i)
  {
    if entries == [] then None
    else if entries[|entries| - 1].0 == id then Some(entries[|entries| - 1].1)
    else
      var r := LastOrderFor(entries[..|entries| - 1], id);
      assert forall i :: 0 <= i < |entries| - 1 ==> entries[..|entries| - 1][i] == entries[i];
      r
  }

  /** How a multi-statement transaction ended. */
  datatype TxOutcome = Committed | RolledBack(failedStatement: nat)
}

=== FILE: seqs.dfy ===
/** The two array operations the client cache is built from: `filter` and a keyed `map` replace. */
module Seqs {

  /** `xs.filter(keep)`. */
  function Filter<T(!new)>(xs: seq<T>, keep: T -> bool): (r: seq<T>)
    ensures |r| <= |xs|
    ensures forall x :: x in r <==> x in xs && keep(x)
  {
    if xs == [] then []
    else if keep(xs[0]) then [xs[0]] + Filter(xs[1..], keep)
    else Filter(xs[1..], keep)
  }

  /** Filtering is order-preserving: it distributes over concatenation. */
  lemma {:induction false} FilterAppend<T(!new)>(xs: seq<T>, ys: seq<T>, keep: T -> bool)
    ensures Filter(xs + ys, keep) == Filter(xs, keep) + Filter(ys, keep)
  {
    if xs == [] {
      assert xs + ys == ys;
    } else {
      assert (xs + ys)[0] == xs[0];
      assert (xs + ys)[1..] == xs[1..] + ys;
      FilterAppend(xs[1..], ys, keep);
      if keep(xs[0]) {
        calc {
          Filter(xs + ys, keep);
          [xs[0]] + Filter(xs[1..] + ys, keep);
          [xs[0]] + (Filter(xs[1..], keep) + Filter(ys, keep));
          ([xs[0]] + Filter(xs[1..], keep)) + Filter(ys, keep);
        }
      }
    }
  }

  /** Filtering keeps a sequence whose every element passes. */
  lemma {:induction false} FilterKeepsAll<T(!new)>(xs: seq<T>, keep: T -> bool)
    requires forall i :: 0 <= i < |xs| ==> keep(xs[i])
    ensures Filter(xs, keep) == xs
  {
    if xs != [] {
      FilterKeepsAll(xs[1..], keep);
      assert [xs[0]] + xs[1..] == xs;
    }
  }

  /** Filtering empties a sequence whose every element fails. */
  lemma {:induction false} FilterDropsAll<T(!new)>(xs: seq<T>, keep: T -> bool)
    requires forall i :: 0 <= i < |xs| ==> !keep(xs[i])
    ensures Filter(xs, keep) == []
  {
    if xs != [] {
      FilterDropsAll(xs[1..], keep);
    }
  }

  /** Splitting by a predicate and by its negation loses and invents nothing. */
  lemma {:induction false} FilterPartition<T(!new)>(xs: seq<T>, keep: T -> bool, drop: T -> bool)
    requires forall x :: x in xs ==> (keep(x) <==> !drop(x))
    ensures |Filter(xs, keep)| + |Filter(xs, drop)| == |xs|
    ensures multiset(Filter(xs, keep)) + multiset(Filter(xs, drop)) == multiset(xs)
  {
    if xs != [] {
      assert xs == [xs[0]] + xs[1..];
      FilterPartition(xs[1..], keep, drop);
    }
  }

  /** `xs.map(x => hit(x) ? y : x)`. */
  function ReplaceWhere<T>(xs: seq<T>, hit: T -> bool, y: T): (r: seq<T>)
    ensures |r| == |xs|
    ensures forall i :: 0 <= i < |xs| && hit(xs[i]) ==> r[i] == y
    ensures forall i :: 0 <= i < |xs| && !hit(xs[i]) ==> r[i] == xs[i]
  {
    if xs == [] then []
    else
      var tail := ReplaceWhere(xs[1..], hit, y);
      var r := [if hit(xs[0]) then y else xs[0]] + tail;
      assert forall i :: 1 <= i < |xs| ==> xs[i] == xs[1..][i - 1] && r[i] == tail[i - 1];
      r
  }
}

=== FILE: sql.dfy ===
/**
 * The relational meaning of the two SQL constructs the stores rely on:
 * `COALESCE(MAX(col), fallback)` over a selected set of values, and
 * `ORDER BY` over a selected set of rows. PostgreSQL does not fix the
 * order of rows whose sort keys tie, so `OrderBy` promises only "every
 * selected row exactly once, sorted by key".
 */
module Sql {

  /** `m` is the largest value of `s`. */
  predicate IsMax(s: set<int>, m: int) {
    m in s && forall x :: x in s ==> x <= m
  }

  /** `COALESCE(MAX(s), fallback)`: the largest value, or the fallback when nothing is selected. */
  function MaxOr(s: set<int>, fallback: int): (r: int)
    ensures s == {} ==> r == fallback
    ensures s != {} ==> IsMax(s, r)
  {
    if s == {} then fallback
    else
      MaxExists(s);
      var m :| IsMax(s, m);
      m
  }

  lemma MaxExists(s: set<int>)
    requires s != {}
    ensures exists m :: IsMax(s, m)
  {
    var y := Pick(s);
    MaxExistsWith(s, y);
  }

  /** Some element of a non-empty set. */
  lemma Pick<X>(s: set<X>) returns (x: X)
    requires s != {}
    ensures x in s
  {
    x :| x in s;
  }

  lemma PickKey<T>(m: map<nat, T>) returns (k: nat)
    requires |m| > 0
    ensures k in m
  {
    assert m.Keys != {};
    k := Pick(m.Keys);
  }

  lemma {:induction false} MaxExistsWith(s: set<int>, y: int)
    requires y in s
    ensures exists m :: IsMax(s, m)
    decreases |s|
  {
    var rest := s - {y};
    if rest == {} {
      assert s == {y};
      assert IsMax(s, y);
    } else {
      var z := Pick(rest);
      MaxExistsWith(rest, z);
      var m :| IsMax(rest, m);
      MaxExtend(rest, y, m);
      assert rest + {y} == s;
    }
  }

  lemma MaxExtend(rest: set<int>, y: int, m: int)
    requires IsMax(rest, m)
    ensures IsMax(rest + {y}, if m < y then y else m)
  {
  }

  /** A two-column sort key, compared lexicographically (`ORDER BY major ASC, minor ASC`). */
  datatype SortKey = SortKey(major: int, minor: int)

  predicate KeyLe(a: SortKey, b: SortKey) {
    a.major < b.major || (a.major == b.major && a.minor <= b.minor)
  }

  /** A strict total order on keyed rows: by key, ties broken by row id. */
  predicate Precedes(a: SortKey, i: nat, b: SortKey, j: nat) {
    || a.major < b.major
    || (a.major == b.major && a.minor < b.minor)
    || (a.major == b.major && a.minor == b.minor && i <= j)
  }

  /** At most one row comes first. */
  lemma FirstUnique<T>(m: map<nat, T>, key: T -> SortKey)
    ensures forall k1, k2 :: IsFirst(m, key, k1) && IsFirst(m, key, k2) ==> k1 == k2
  {
    forall k1, k2 | IsFirst(m, key, k1) && IsFirst(m, key, k2) ensures k1 == k2 {
      assert Precedes(key(m[k1]), k1, key(m[k2]), k2);
      assert Precedes(key(m[k2]), k2, key(m[k1]), k1);
    }
  }

  /** The ids of `m` in a sequence: each exactly once. */
  predicate EnumeratesKeys<T>(m: map<nat, T>, ids: seq<nat>) {
    && (forall i :: 0 <= i < |ids| ==> ids[i] in m)
    && (forall k :: k in m ==> k in ids)
    && (forall i, j :: 0 <= i < j < |ids| ==> ids[i] != ids[j])
  }

  /** Sorted non-decreasingly by `key`. */
  predicate SortedBy<T>(m: map<nat, T>, key: T -> SortKey, ids: seq<nat>)
    requires forall i :: 0 <= i < |ids| ==> ids[i] in m
  {
    forall i, j :: 0 <= i < j < |ids| ==> KeyLe(key(m[ids[i]]), key(m[ids[j]]))
  }

  /** The row of `m` that comes first under `Precedes`. */
  predicate IsFirst<T>(m: map<nat, T>, key: T -> SortKey, k: nat) {
    k in m && forall j :: j in m ==> Precedes(key(m[k]), k, key(m[j]), j)
  }

  /**
   * `SELECT id FROM m ORDER BY key`: every row id of `m` exactly once, sorted by key.
   * Which of two tied rows comes first is not promised.
   */
  function OrderBy<T>(m: map<nat, T>, key: T -> SortKey): (ids: seq<nat>)
    ensures EnumeratesKeys(m, ids)
    ensures SortedBy(m, key, ids)
    ensures |ids| == |m|
    decreases |m|
  {
    if |m| == 0 then []
    else
      FirstExists(m, key);
      FirstUnique(m, key);
      var k :| IsFirst(m, key, k);
      var rest := m - {k};
      assert rest.Keys == m.Keys - {k};
      var tail := OrderBy(rest, key);
      OrderByStep(m, key, k, tail);
      [k] + tail
  }

  lemma OrderByStep<T>(m: map<nat, T>, key: T -> SortKey, k: nat, tail: seq<nat>)
    requires IsFirst(m, key, k)
    requires EnumeratesKeys(m - {k}, tail) && SortedBy(m - {k}, key, tail)
    requires |tail| == |m - {k}|
    ensures EnumeratesKeys(m, [k] + tail) && SortedBy(m, key, [k] + tail)
    ensures |[k] + tail| == |m|
  {
    var rest := m - {k};
    assert rest.Keys == m.Keys - {k};
    EnumerateStep(m, k, tail);
    SortedTransfer(m, rest, key, tail);
    SortedCons(m, key, k, tail);
  }

  lemma EnumerateStep<T>(m: map<nat, T>, k: nat, tail: seq<nat>)
    requires k in m
    requires EnumeratesKeys(m - {k}, tail)
    ensures EnumeratesKeys(m, [k] + tail)
  {
    var rest := m - {k};
    var ids := [k] + tail;
    forall j | j in m ensures j in ids {
      if j != k { assert j in rest; }
    }
  }

  /** Sortedness depends only on the rows listed. */
  lemma SortedTransfer<T>(m: map<nat, T>, sub: map<nat, T>, key: T -> SortKey, ids: seq<nat>)
    requires forall i :: 0 <= i < |ids| ==> ids[i] in sub
    requires forall x :: x in sub ==> x in m && m[x] == sub[x]
    requires SortedBy(sub, key, ids)
    ensures forall i :: 0 <= i < |ids| ==> ids[i] in m
    ensures SortedBy(m, key, ids)
  {
  }

  lemma SortedCons<T>(m: map<nat, T>, key: T -> SortKey, k: nat, tail: seq<nat>)
    requires IsFirst(m, key, k)
    requires forall i :: 0 <= i < |tail| ==> tail[i] in m
    requires SortedBy(m, key, tail)
    ensures SortedBy(m, key, [k] + tail)
  {
    var ids := [k] + tail;
    forall i, j | 0 <= i < j < |ids| ensures KeyLe(key(m[ids[i]]), key(m[ids[j]])) {
      if i == 0 {
        assert Precedes(key(m[k]), k, key(m[ids[j]]), ids[j]);
      } else {
        assert ids[i] == tail[i - 1] && ids[j] == tail[j - 1];
      }
    }
  }

  lemma {:induction false} FirstExists<T>(m: map<nat, T>, key: T -> SortKey)
    requires |m| > 0
    ensures exists k :: IsFirst(m, key, k)
    decreases |m|
  {
    var y := PickKey(m);
    var rest := m - {y};
    assert rest.Keys == m.Keys - {y};
    if |rest| == 0 {
      assert m.Keys == {y};
      assert IsFirst(m, key, y);
    } else {
      FirstExists(rest, key);
      var k :| IsFirst(rest, key, k);
      if Precedes(key(m[k]), k, key(m[y]), y) {
        forall j | j in m ensures Precedes(key(m[k]), k, key(m[j]), j) {
          if j != y { assert j in rest; }
        }
        assert IsFirst(m, key, k);
      } else {
        forall j | j in m ensures Precedes(key(m[y]), y, key(m[j]), j) {
          if j != y {
            assert j in rest;
            assert Precedes(key(m[k]), k, key(m[j]), j);
          }
        }
        assert IsFirst(m, key, y);
      }
    }
  }
}

=== FILE: team_member_model.dfy ===
/**
 * The `team_members` table and the SQL statements the TeamMember model issues
 * against it, each given its relational meaning over `Schema.Db`.
 */
module TeamMemberModel {
  import opened Wrappers
  import opened Schema
  import Sql
  import ReorderBatch

  /** The display orders of every row of one manager, archived rows included. */
  function OrdersOf(rows: map<Id, TeamMember>, managerId: Id): set<int> {
    set k | k in rows && rows[k].managerId == managerId :: rows[k].displayOrder
  }

  /** `SELECT COALESCE(MAX(display_order), -1) + 1 FROM team_members WHERE manager_id = $1`. */
  function NextDisplayOrder(db: Db, managerId: Id): (next: int)
    ensures forall k :: k in db.teamMembers && db.teamMembers[k].managerId == managerId ==>
      db.teamMembers[k].displayOrder < next
    ensures (forall k :: k in db.teamMembers ==> db.teamMembers[k].managerId != managerId) ==> next == 0
    ensures (exists k :: k in db.teamMembers && db.teamMembers[k].managerId == managerId) ==>
      exists k :: k in db.teamMembers && db.teamMembers[k].managerId == managerId && next == db.teamMembers[k].displayOrder + 1
  {
    var orders := OrdersOf(db.teamMembers, managerId);
    assert forall k :: k in db.teamMembers && db.teamMembers[k].managerId == managerId ==>
      db.teamMembers[k].displayOrder in orders;
    Sql.MaxOr(orders, -1) + 1
  }

  /** `TeamMember.create`: insert one row at the next display order, unarchived. */
  function Create(db: Db, managerId: Id, name: string, now: Time): (w: Write<TeamMember>)
    requires Valid(db)
    ensures Valid(w.db)
    ensures w.result.id !in db.teamMembers
    ensures w.db.teamMembers == db.teamMembers[w.result.id := w.result]
    ensures w.db.priorities == db.priorities
    ensures w.result.managerId == managerId && w.result.name == name
    ensures !w.result.isArchived && w.result.createdAt == now
    ensures forall k :: k in db.teamMembers && db.teamMembers[k].managerId == managerId ==>
      db.teamMembers[k].displayOrder < w.result.displayOrder
    ensures (forall k :: k in db.teamMembers ==> db.teamMembers[k].managerId != managerId) ==>
      w.result.displayOrder == 0
    ensures (exists k :: k in db.teamMembers && db.teamMembers[k].managerId == managerId) ==>
      exists k :: k in db.teamMembers && db.teamMembers[k].managerId == managerId &&
        w.result.displayOrder == db.teamMembers[k].displayOrder + 1
  {
    var id := db.nextTeamMemberId;
    var row := TeamMember(id, managerId, name, NextDisplayOrder(db, managerId), false, now);
    Write(row, db.(teamMembers := db.teamMembers[id := row], nextTeamMemberId := id + 1))
  }

  /** After a create, the manager's next display order is one past the row just created. */
  lemma CreateAdvancesNextOrder(db: Db, managerId: Id, name: string, now: Time)
    requires Valid(db)
    ensures var w := Create(db, managerId, name, now);
      NextDisplayOrder(w.db, managerId) == w.result.displayOrder + 1
  {
    var w := Create(db, managerId, name, now);
    var before := OrdersOf(db.teamMembers, managerId);
    var after := OrdersOf(w.db.teamMembers, managerId);
    assert after == before + {w.result.displayOrder} by {
      forall o | o in after ensures o in before + {w.result.displayOrder} {
        var k :| k in w.db.teamMembers && w.db.teamMembers[k].managerId == managerId && w.db.teamMembers[k].displayOrder == o;
        if k != w.result.id {
          assert k in db.teamMembers;
        }
      }
      assert w.result.id in w.db.teamMembers;
      forall o | o in before ensures o in after {
        var k :| k in db.teamMembers && db.teamMembers[k].managerId == managerId && db.teamMembers[k].displayOrder == o;
        assert k in w.db.teamMembers && w.db.teamMembers[k] == db.teamMembers[k];
      }
    }
    assert Sql.IsMax(after, w.result.displayOrder);
  }

  /** The `WHERE` clause of the listing query. */
  predicate Listed(row: TeamMember, managerId: Id, includeArchived: bool) {
    row.managerId == managerId && (includeArchived || !row.isArchived)
  }

  function DisplayOrderKey(row: TeamMember): Sql.SortKey {
    Sql.SortKey(row.displayOrder, 0)
  }

  /**
   * `rows` is an answer to the listing query: exactly the manager's rows that
   * pass the archive filter, each once, by ascending display order.
   */
  predicate IsListing(db: Db, managerId: Id, includeArchived: bool, rows: seq<TeamMember>) {
    && (forall i :: 0 <= i < |rows| ==>
      rows[i].id in db.teamMembers && db.teamMembers[rows[i].id] == rows[i] && Listed(rows[i], managerId, includeArchived))
    && (forall k :: k in db.teamMembers && Listed(db.teamMembers[k], managerId, includeArchived) ==>
      exists i :: 0 <= i < |rows| && rows[i].id == k)
    && (forall i, j :: 0 <= i < j < |rows| ==> rows[i].id != rows[j].id)
    && (forall i, j :: 0 <= i < j < |rows| ==> rows[i].displayOrder <= rows[j].displayOrder)
  }

  /** `TeamMember.findAllByManager`. */
  function FindAllByManager(db: Db, managerId: Id, includeArchived: bool): (rows: seq<TeamMember>)
    requires Valid(db)
    ensures IsListing(db, managerId, includeArchived, rows)
  {
    var selected := Selected(db, managerId, includeArchived);
    var ids := Sql.OrderBy(selected, DisplayOrderKey);
    var rows := seq(|ids|, i requires 0 <= i < |ids| => selected[ids[i]]);
    ListingFacts(db, managerId, includeArchived, ids, rows);
    rows
  }

  function Selected(db: Db, managerId: Id, includeArchived: bool): map<Id, TeamMember> {
    map k | k in db.teamMembers && Listed(db.teamMembers[k], managerId, includeArchived) :: db.teamMembers[k]
  }

  lemma ListingFacts(db: Db, managerId: Id, includeArchived: bool, ids: seq<Id>, rows: seq<TeamMember>)
    requires Valid(db)
    requires Sql.EnumeratesKeys(Selected(db, managerId, includeArchived), ids)
    requires Sql.SortedBy(Selected(db, managerId, includeArchived), DisplayOrderKey, ids)
    requires |rows| == |ids| && forall i :: 0 <= i < |ids| ==> rows[i] == Selected(db, managerId, includeArchived)[ids[i]]
    ensures IsListing(db, managerId, includeArchived, rows)
  {
    var selected := Selected(db, managerId, includeArchived);
    assert forall i :: 0 <= i < |rows| ==> rows[i].id == ids[i];
    forall k | k in db.teamMembers && Listed(db.teamMembers[k], managerId, includeArchived)
      ensures exists i :: 0 <= i < |rows| && rows[i].id == k
    {
      assert k in selected;
      var i :| 0 <= i < |ids| && ids[i] == k;
      assert rows[i].id == k;
    }
    forall i, j | 0 <= i < j < |rows| ensures rows[i].displayOrder <= rows[j].displayOrder {
      assert Sql.KeyLe(DisplayOrderKey(selected[ids[i]]), DisplayOrderKey(selected[ids[j]]));
    }
  }

  /** The fields a PATCH may carry; `None` is a field left out of the patch. */
  datatype TeamMemberPatch = TeamMemberPatch(name: Option<string>, displayOrder: Option<int>, isArchived: Option<bool>) {
    predicate IsEmpty() {
      name.None? && displayOrder.None? && isArchived.None?
    }
  }

  /**
   * `TeamMember.update`: an empty patch issues no statement and yields `null`;
   * otherwise `UPDATE ... WHERE id = $n RETURNING *` sets exactly the fields present.
   */
  function Update(db: Db, id: Id, patch: TeamMemberPatch): (w: Write<Option<TeamMember>>)
    requires Valid(db)
    ensures Valid(w.db)
    ensures w.db.priorities == db.priorities
    ensures w.result.Some? <==> !patch.IsEmpty() && id in db.teamMembers
    ensures w.result.None? ==> w.db == db
    ensures w.result.Some? ==>
      var old_, new_ := db.teamMembers[id], w.result.value;
      && w.db.teamMembers == db.teamMembers[id := new_]
      && new_.id == id && new_.managerId == old_.managerId && new_.createdAt == old_.createdAt
      && new_.name == (if patch.name.Some? then patch.name.value else old_.name)
      && new_.displayOrder == (if patch.displayOrder.Some? then patch.displayOrder.value else old_.displayOrder)
      && new_.isArchived == (if patch.isArchived.Some? then patch.isArchived.value else old_.isArchived)
  {
    if patch.IsEmpty() || id !in db.teamMembers then Write(None, db)
    else
      var row := db.teamMembers[id];
      var row' := row.(
        name := patch.name.GetOr(row.name),
        displayOrder := patch.displayOrder.GetOr(row.displayOrder),
        isArchived := patch.isArchived.GetOr(row.isArchived));
      Write(Some(row'), db.(teamMembers := db.teamMembers[id := row']))
  }

  /** The reorder statement's ownership test, `manager_id = $3`. */
  function ReorderScope(managerId: Id): TeamMember -> bool {
    (row: TeamMember) => row.managerId == managerId
  }

  /** The reorder statement's assignment, `display_order = $1`. */
  function WithOrder(row: TeamMember, order: int): TeamMember {
    row.(displayOrder := order)
  }

  /**
   * `TeamMember.reorder`: BEGIN, one scoped UPDATE per entry, COMMIT; on any
   * error ROLLBACK and rethrow. Ids of other managers, and absent ids, are skipped.
   */
  function Reorder(db: Db, managerId: Id, entries: seq<OrderEntry>, failAt: Option<nat>): (w: Write<TxOutcome>)
    requires Valid(db)
    ensures Valid(w.db)
    ensures w.result.RolledBack? <==> failAt.Some? && failAt.value < |entries|
    ensures w.result.RolledBack? ==> w.db == db
    ensures w.result.Committed? ==>
      && w.db == db.(teamMembers := w.db.teamMembers)
      && w.db.priorities == db.priorities
      && w.db.nextTeamMemberId == db.nextTeamMemberId
      && w.db.teamMembers.Keys == db.teamMembers.Keys
      && forall k :: k in db.teamMembers ==>
        var row := db.teamMembers[k];
        if row.managerId == managerId && LastOrderFor(entries, k).Some?
        then w.db.teamMembers[k] == row.(displayOrder := LastOrderFor(entries, k).value)
        else w.db.teamMembers[k] == row
  {
    ReorderBatch.RunMeaning(db.teamMembers, ReorderScope(managerId), WithOrder, entries, failAt);
    match ReorderBatch.Run(db.teamMembers, ReorderScope(managerId), WithOrder, entries, failAt)
    case None => Write(RolledBack(failAt.value), db)
    case Some(rows) => Write(Committed, db.(teamMembers := rows))
  }

  /** `TeamMember.delete`: the soft delete `UPDATE ... SET is_archived = TRUE WHERE id = $1 RETURNING *`. */
  function Archive(db: Db, id: Id): (w: Write<Option<TeamMember>>)
    requires Valid(db)
    ensures Valid(w.db)
    ensures w.db.priorities == db.priorities
    ensures w.result.Some? <==> id in db.teamMembers
    ensures w.result.None? ==> w.db == db
    ensures w.result.Some? ==>
      && w.result.value == db.teamMembers[id].(isArchived := true)
      && w.db.teamMembers == db.teamMembers[id := w.result.value]
  {
    if id !in db.teamMembers then Write(None, db)
    else
      var row := db.teamMembers[id].(isArchived := true);
      Write(Some(row), db.(teamMembers := db.teamMembers[id := row]))
  }

  /** `TeamMember.verifyOwnership`: `SELECT id FROM team_members WHERE id = $1 AND manager_id = $2` returns a row. */
  function VerifyOwnership(db: Db, id: Id, managerId: Id): (owned: bool)
    ensures owned <==> id in db.teamMembers && db.teamMembers[id].managerId == managerId
  {
    var hits := set k | k in db.teamMembers && k == id && db.teamMembers[k].managerId == managerId;
    assert id in db.teamMembers && db.teamMembers[id].managerId == managerId ==> id in hits;
    |hits| > 0
  }

  /** Archiving hides a row from the default listing but not from the listing that includes archived rows. */
  lemma ArchiveHidesFromDefaultListing(db: Db, id: Id, managerId: Id)
    requires Valid(db)
    requires VerifyOwnership(db, id, managerId)
    ensures var db' := Archive(db, id).db;
      && (forall i :: 0 <= i < |FindAllByManager(db', managerId, false)| ==> FindAllByManager(db', managerId, false)[i].id != id)
      && (exists i :: 0 <= i < |FindAllByManager(db', managerId, true)| && FindAllByManager(db', managerId, true)[i].id == id)
  {
    var db' := Archive(db, id).db;
    assert id in db'.teamMembers && Listed(db'.teamMembers[id], managerId, true);
    var all := FindAllByManager(db', managerId, true);
    assert exists i :: 0 <= i < |all| && all[i].id == id;
  }
}

=== FILE: team_member_panel.dfy ===
/** A team member's panel: its name editor and its priorities split into active and completed sections. */
module TeamMemberPanel {
  import opened Wrappers
  import opened Schema
  import Text
  import Seqs
  import InlineEdit
  import AppContext
  import PriorityModel
  import TeamMemberModel
  import TeamMemberRoutes

  /** What the panel draws: the two sections and whether the empty-state line shows. */
  datatype Sections = Sections(active: seq<Priority>, completed: seq<Priority>, showsEmptyState: bool)

  predicate IsActive(p: Priority) { p.status == Active }
  predicate IsCompleted(p: Priority) { p.status == Completed }

  /** The panel's view of the cache: a missing list is drawn as empty. */
  function PanelSections(cache: map<Id, seq<Priority>>, memberId: Id): (s: Sections)
    ensures var list := AppContext.ListOf(cache, memberId);
      && s.active == Seqs.Filter(list, IsActive)
      && s.completed == Seqs.Filter(list, IsCompleted)
      && (forall p :: p in s.active <==> p in list && p.status == Active)
      && (forall p :: p in s.completed <==> p in list && p.status == Completed)
      && |s.active| + |s.completed| == |list|
      && multiset(s.active) + multiset(s.completed) == multiset(list)
    ensures s.showsEmptyState <==> s.active == [] && s.completed == []
  {
    var list := AppContext.ListOf(cache, memberId);
    Seqs.FilterPartition(list, IsActive, IsCompleted);
    Sections(Seqs.Filter(list, IsActive), Seqs.Filter(list, IsCompleted), |list| == 0)
  }

  /**
   * For a list as the server lists it, the two sections are the listing cut
   * in two: drawing active then completed shows the server's order.
   */
  lemma ServerListingDrawnInOrder(db: Db, memberId: Id, rows: seq<Priority>)
    requires PriorityModel.IsListing(db, memberId, rows)
    ensures var s := PanelSections(map[memberId := rows], memberId);
      s.active + s.completed == rows
  {
    PriorityModel.ActiveBeforeCompleted(db, memberId, rows);
    var n: nat :| PriorityModel.SplitsAt(rows, n);
    assert AppContext.ListOf(map[memberId := rows], memberId) == rows;
    SplitSections(rows, n);
  }

  /** Cutting a list at the end of its active run gives the two sections. */
  lemma {:induction false} SplitSections(rows: seq<Priority>, n: nat)
    requires PriorityModel.SplitsAt(rows, n)
    ensures Seqs.Filter(rows, IsActive) + Seqs.Filter(rows, IsCompleted) == rows
  {
    if n == 0 {
      Seqs.FilterDropsAll(rows, IsActive);
      Seqs.FilterKeepsAll(rows, IsCompleted);
    } else {
      SplitsTail(rows, n);
      SplitSections(rows[1..], n - 1);
      SectionsStep(rows);
      assert [rows[0]] + rows[1..] == rows;
    }
  }

  /** Past a leading active priority, the rest splits one position earlier. */
  lemma SplitsTail(rows: seq<Priority>, n: nat)
    requires PriorityModel.SplitsAt(rows, n) && n > 0
    ensures PriorityModel.SplitsAt(rows[1..], n - 1)
  {
    var tail := rows[1..];
    forall i | 0 <= i < |tail| ensures (tail[i].status == Active <==> i < n - 1) {
      assert tail[i] == rows[i + 1];
    }
  }

  /** A leading active priority opens the active section and stays out of the completed one. */
  lemma SectionsStep(rows: seq<Priority>)
    requires rows != [] && IsActive(rows[0])
    ensures Seqs.Filter(rows, IsActive) + Seqs.Filter(rows, IsCompleted)
         == [rows[0]] + (Seqs.Filter(rows[1..], IsActive) + Seqs.Filter(rows[1..], IsCompleted))
  {}

  /**
   * The name editor never stores a blank name: what a blur hands to the
   * auto-saver, sent through the PATCH route by the owner, is stored exactly as sent.
   */
  lemma NameSaveStoredAsSent(db: Db, managerId: Id, id: Id, draft: string)
    requires Valid(db) && TeamMemberModel.VerifyOwnership(db, id, managerId)
    requires InlineEdit.Blur(draft, db.teamMembers[id].name).save.Some?
    ensures var sent := InlineEdit.Blur(draft, db.teamMembers[id].name).save.value;
      var h := TeamMemberRoutes.Patch(db, managerId, id, Some(sent), None, None);
      && h.response.status == 200
      && h.state.teamMembers[id].name == sent
      && !Text.IsBlank(h.state.teamMembers[id].name)
      && h.state.teamMembers[id].isArchived == db.teamMembers[id].isArchived
  {
    var stored := db.teamMembers[id].name;
    InlineEdit.BlurAgreesWithGuard(draft, stored);
    InlineEdit.SentValueIsClean(draft, stored);
    var sent := InlineEdit.Blur(draft, stored).save.value;
    var patch := TeamMemberRoutes.BuildPatch(Some(sent), None, None);
    assert patch.name == Some(sent) && !patch.IsEmpty();
  }
}

=== FILE: team_member_routes.dfy ===
/**
 * The `/api/team-members` handlers. Each is a function from the request's
 * fields and the store to a response and the store after it; validation and
 * the ownership check happen before anything is written.
 */
module TeamMemberRoutes {
  import opened Wrappers
  import opened Schema
  import opened Http
  import Text
  import TeamMemberModel

  const NotFound := Error(404, "Team member not found")

  /** `GET /`: the caller's team members; archived ones only for `include_archived=true`. */
  function List(db: Db, managerId: Id, includeArchivedParam: Option<string>): (h: Handled<Db>)
    requires Valid(db)
    ensures h.state == db && h.response.status == 200 && h.response.body.TeamMembersJson?
    ensures TeamMemberModel.IsListing(db, managerId, includeArchivedParam == Some("true"), h.response.body.teamMembers)
  {
    var includeArchived := includeArchivedParam == Some("true");
    Handled(Response(200, TeamMembersJson(TeamMemberModel.FindAllByManager(db, managerId, includeArchived))), db)
  }

  /** `POST /`: a missing or blank name is refused; otherwise the trimmed name is stored. */
  function Create(db: Db, managerId: Id, name: Option<string>, now: Time): (h: Handled<Db>)
    requires Valid(db)
    ensures Valid(h.state)
    ensures (name.None? || Text.IsBlank(name.value)) ==> h == Handled(Error(400, "Name is required"), db)
    ensures name.Some? && !Text.IsBlank(name.value) ==>
      && h.response.status == 201
      && h.response.body.TeamMemberJson?
      && var row := h.response.body.teamMember;
        && row.name == Text.Trim(name.value) && row.managerId == managerId && !row.isArchived
        && row.displayOrder == TeamMemberModel.NextDisplayOrder(db, managerId) && row.createdAt == now
        && row.id !in db.teamMembers
        && h.state.teamMembers == db.teamMembers[row.id := row]
        && h.state.priorities == db.priorities
  {
    if Falsy(name) || Text.IsBlank(name.value) then Handled(Error(400, "Name is required"), db)
    else
      var w := TeamMemberModel.Create(db, managerId, Text.Trim(name.value), now);
      Handled(Response(201, TeamMemberJson(w.result)), w.db)
  }

  /** The update object the PATCH handler builds: each field only when the body carries it. */
  function BuildPatch(name: Option<string>, displayOrder: Option<int>, isArchived: Option<bool>): (p: TeamMemberModel.TeamMemberPatch)
    ensures p.name.Some? <==> name.Some?
    ensures name.Some? ==> p.name.value == Text.Trim(name.value)
    ensures p.displayOrder == displayOrder && p.isArchived == isArchived
  {
    TeamMemberModel.TeamMemberPatch(
      if name.Some? then Some(Text.Trim(name.value)) else None,
      displayOrder,
      isArchived)
  }

  /**
   * `PATCH /:id`: 404 unless the caller owns the team member; otherwise the
   * built patch is applied and the row (or `null` for an empty patch) returned.
   */
  function Patch(db: Db, managerId: Id, id: Id, name: Option<string>, displayOrder: Option<int>, isArchived: Option<bool>): (h: Handled<Db>)
    requires Valid(db)
    ensures Valid(h.state)
    ensures !TeamMemberModel.VerifyOwnership(db, id, managerId) ==> h == Handled(NotFound, db)
    ensures TeamMemberModel.VerifyOwnership(db, id, managerId) ==>
      && h.response.status == 200
      && var w := TeamMemberModel.Update(db, id, BuildPatch(name, displayOrder, isArchived));
        && h.state == w.db
        && h.response.body == (if w.result.Some? then TeamMemberJson(w.result.value) else NullJson)
    ensures TeamMemberModel.VerifyOwnership(db, id, managerId) && name.None? && displayOrder.None? && isArchived.None? ==>
      h == Handled(Response(200, NullJson), db)
  {
    if !TeamMemberModel.VerifyOwnership(db, id, managerId) then Handled(NotFound, db)
    else
      var w := TeamMemberModel.Update(db, id, BuildPatch(name, displayOrder, isArchived));
      Handled(Response(200, if w.result.Some? then TeamMemberJson(w.result.value) else NullJson), w.db)
  }

  /**
   * `PATCH /reorder`: 400 without an `order_map` object; otherwise the scoped
   * batch runs and reports success even when some ids were skipped, or 500
   * after a rollback.
   */
  function Reorder(db: Db, managerId: Id, orderMap: Option<seq<OrderEntry>>, failAt: Option<nat>): (h: Handled<Db>)
    requires Valid(db)
    ensures Valid(h.state)
    ensures orderMap.None? ==> h == Handled(Error(400, "order_map is required and must be an object"), db)
    ensures orderMap.Some? && failAt.Some? && failAt.value < |orderMap.value| ==>
      h == Handled(Error(500, "Failed to reorder team members"), db)
    ensures orderMap.Some? && !(failAt.Some? && failAt.value < |orderMap.value|) ==>
      && h.response == Response(200, MessageJson("Team members reordered successfully"))
      && h.state.priorities == db.priorities
      && h.state.teamMembers.Keys == db.teamMembers.Keys
      && (forall k :: k in db.teamMembers && db.teamMembers[k].managerId != managerId ==>
           h.state.teamMembers[k] == db.teamMembers[k])
      && h.state == db.(teamMembers := h.state.teamMembers)
      && (forall k :: k in db.teamMembers && db.teamMembers[k].managerId == managerId ==>
           h.state.teamMembers[k] == db.teamMembers[k].(displayOrder :=
             LastOrderFor(orderMap.value, k).GetOr(db.teamMembers[k].displayOrder)))
  {
    if orderMap.None? then Handled(Error(400, "order_map is required and must be an object"), db)
    else
      var w := TeamMemberModel.Reorder(db, managerId, orderMap.value, failAt);
      if w.result.RolledBack? then Handled(Error(500, "Failed to reorder team members"), db)
      else Handled(Response(200, MessageJson("Team members reordered successfully")), w.db)
  }

  /** `DELETE /:id`: 404 unless owned; otherwise the team member is archived and returned. */
  function Delete(db: Db, managerId: Id, id: Id): (h: Handled<Db>)
    requires Valid(db)
    ensures Valid(h.state)
    ensures !TeamMemberModel.VerifyOwnership(db, id, managerId) ==> h == Handled(NotFound, db)
    ensures TeamMemberModel.VerifyOwnership(db, id, managerId) ==>
      && h.response == Response(200, TeamMemberJson(db.teamMembers[id].(isArchived := true)))
      && h.state.teamMembers == db.teamMembers[id := db.teamMembers[id].(isArchived := true)]
      && h.state.priorities == db.priorities
  {
    if !TeamMemberModel.VerifyOwnership(db, id, managerId) then Handled(NotFound, db)
    else
      var w := TeamMemberModel.Archive(db, id);
      Handled(Response(200, TeamMemberJson(w.result.value)), w.db)
  }

  /**
   * Another manager's team member and an id that does not exist at all get
   * the same answer from every id-addressed handler, and nothing changes.
   */
  lemma ForeignLooksAbsent(db: Db, managerId: Id, foreign: Id, absent: Id,
                           name: Option<string>, displayOrder: Option<int>, isArchived: Option<bool>)
    requires Valid(db)
    requires foreign in db.teamMembers && db.teamMembers[foreign].managerId != managerId
    requires absent !in db.teamMembers
    ensures Patch(db, managerId, foreign, name, displayOrder, isArchived) == Patch(db, managerId, absent, name, displayOrder, isArchived)
    ensures Delete(db, managerId, foreign) == Delete(db, managerId, absent)
    ensures Patch(db, managerId, foreign, name, displayOrder, isArchived).state == db
    ensures Delete(db, managerId, foreign).state == db
  {
  }
}

=== FILE: text.dfy ===
/** Strings as the JavaScript code sees them: `String.prototype.trim` and blankness. */
module Text {

  /** The characters `trim` removes: ECMAScript WhiteSpace and LineTerminator code points. */
  predicate IsWhitespace(c: char) {
    || c == ' ' || c == '\t' || c == '\n' || c == '\r'
    || c == '\U{000B}' || c == '\U{000C}' || c == '\U{00A0}' || c == '\U{FEFF}'
    || c == '\U{1680}' || ('\U{2000}' <= c <= '\U{200A}')
    || c == '\U{2028}' || c == '\U{2029}' || c == '\U{202F}' || c == '\U{205F}' || c == '\U{3000}'
  }

  predicate AllWhitespace(s: string) {
    forall i :: 0 <= i < |s| ==> IsWhitespace(s[i])
  }

  /** Drops the longest whitespace prefix. */
  function TrimStart(s: string): (r: string)
    ensures |r| <= |s| && r == s[|s| - |r|..]
    ensures AllWhitespace(s[..|s| - |r|])
    ensures r != [] ==> !IsWhitespace(r[0])
  {
    if s != [] && IsWhitespace(s[0]) then TrimStart(s[1..]) else s
  }

  /** Drops the longest whitespace suffix. */
  function TrimEnd(s: string): (r: string)
    ensures |r| <= |s| && r == s[..|r|]
    ensures AllWhitespace(s[|r|..])
    ensures r != [] ==> !IsWhitespace(r[|r| - 1])
  {
    if s != [] && IsWhitespace(s[|s| - 1]) then TrimEnd(s[..|s| - 1]) else s
  }

  /** How many characters `trim` drops from the front of `s`. */
  function LeadingWhitespace(s: string): (n: nat)
    ensures n <= |s|
  {
    |s| - |TrimStart(s)|
  }

  /** `s.trim()`: the longest infix of `s` that neither starts nor ends with whitespace. */
  function Trim(s: string): (r: string)
    ensures |r| <= |s|
    ensures LeadingWhitespace(s) + |r| <= |s|
    ensures r == s[LeadingWhitespace(s)..LeadingWhitespace(s) + |r|]
    ensures r != [] ==> !IsWhitespace(r[0]) && !IsWhitespace(r[|r| - 1])
  {
    var t := TrimStart(s);
    var r := TrimEnd(t);
    assert t == s[LeadingWhitespace(s)..];
    assert r == t[..|r|];
    r
  }

  /** What `trim` drops, before and after the infix it keeps, is all whitespace. */
  lemma TrimDropsOnlyWhitespace(s: string)
    ensures AllWhitespace(s[..LeadingWhitespace(s)])
    ensures AllWhitespace(s[LeadingWhitespace(s) + |Trim(s)|..])
  {
    var t := TrimStart(s);
    assert s[LeadingWhitespace(s) + |Trim(s)|..] == t[|Trim(s)|..];
  }

  /** `s.trim() === ''`. */
  predicate IsBlank(s: string) {
    Trim(s) == ""
  }

  /** A string is blank exactly when every character of it is whitespace. */
  lemma BlankIffAllWhitespace(s: string)
    ensures IsBlank(s) <==> AllWhitespace(s)
  {
    var t := TrimStart(s);
    if IsBlank(s) {
      assert TrimEnd(t) == [] && AllWhitespace(t[0..]);
      assert t == [];
      assert s[..|s|] == s;
    }
  }

  /** Trimming twice is trimming once. */
  lemma TrimIdempotent(s: string)
    ensures Trim(Trim(s)) == Trim(s)
  {
    var t := Trim(s);
    assert TrimStart(t) == t;
    assert TrimEnd(t) == t;
  }
}

=== FILE: wrappers.dfy ===
/** Optional values and call outcomes shared by the whole model. */
module Wrappers {

  /** An optional value: JavaScript's `undefined`/`null` versus a present value. */
  datatype Option<+T> = None | Some(value: T) {
    function GetOr(default: T): T {
      match this
      case Some(v) => v
      case None => default
    }
  }

  /** The outcome of a call that may throw: a value or the error it propagates. */
  datatype Result<+R, +E> = Success(value: R) | Failure(error: E)
}
